=== FILE: README.md ===
# Multi-agent sales assistant, modelled in Dafny

This project models the back end of a small sales assistant. A chat message is classified
into one of three intents: `sales`, `report` or `summary`. The orchestrator (`AgentManager`)
then runs a prefix of a fixed chain of three stages:

- the **Sales agent** resolves a month named in the message and fetches that month's record
  from a fixed table;
- the **Report agent** computes analytics and writes a one-line summary: the weekly average,
  the growth against the previous month, and the best and worst weeks;
- the **Summary agent** turns the report into a short narrative with a trend label.

The first stage that fails ends the run. The chat route wraps the orchestrator's result in a
JSON envelope. It offers a PDF download for report and summary intents. Its document
endpoint either refuses, for one of three reasons, or hands the report to the renderer.

Modules follow the source files:

- `SalesData` is `utils/salesData.js`.
- `SalesStage`, `ReportStage` and `SummaryStage` are the three agents.
- `Classifier` and `AgentManager` are `managers/AgentManager.js`.
- `ChatRoute` is `routes/chat.js`.
- `Stages` holds the record the stages pass along.
- `Text`, `Numbers` and `Seqs` stand for the JavaScript built-ins the core relies on: `toLowerCase`,
  `includes`, `join`, `String(n)`, `toLocaleString`, `toFixed`, and `indexOf` or a key lookup.
- `Scenarios`, `RoutingScenarios` and `PdfScenarios` prove what the fixed table and the example
  queries shipped with the service produce.

Design choices:

- Every stage is a pure function from its input to a `StageResult`. The orchestrator is a pure
  function of the message.
- An `executionFlow` entry keeps the agent that produced it. Its `agent` and `action` strings
  are derived from that agent.
- A refused document request keeps its reason (`NoMessage`, `RunFailed`, `WrongIntent`). The
  JSON fields `error`, `queryIntent` and `suggestion` are derived from that reason.
- The growth percentage is an integer count of tenths of a percent.
- The weekly average is an exact `real`.

The code and its shipped test scripts disagree on one point. `test-pdf-restriction.js`
expects the document request for "Summarize October sales" to be refused. The route's intent
check (`routes/chat.js:81`) admits `summary`, and so does `test-pdf-availability.js`. The
model follows the code: `PdfScenarios.SummaryQueryHasPdf` proves that the summary query is
rendered.

## Model

| member | source | states |
|---|---|---|
| SalesData.Table | backend/utils/salesData.js:2-32 | Three months, each with four weeks numbered 1 to 4 whose revenues add up to the recorded positive total; no month appears twice |
| SalesData.AvailableMonths | backend/utils/salesData.js:51-53 | The month names in the table's key order: September, October, November |
| SalesData.GetSalesDataByMonth | backend/utils/salesData.js:39-45 | A record is returned exactly when the name is a key of the table (case-sensitive), and it is that key's consistent record |
| Text.Lower | backend/managers/AgentManager.js:175 | Lower-casing keeps the length, turns each capital A to Z into its own lower-case letter, and keeps every other character |
| Numbers.ParseNatToString | backend/agents/SalesAgent.js:79 | The decimal numeral printed for a week number reads back as that number |
| Numbers.Grouped | backend/agents/SalesAgent.js:79 | The locale form of an amount has a comma exactly when the amount is 1000 or more |
| Numbers.GroupedShape | backend/agents/SalesAgent.js:79 | The locale form is a leading group of one to three digits, followed by groups of a comma and exactly three digits, and it starts with `0` only for zero |
| Numbers.GroupedRoundTrip | backend/agents/SalesAgent.js:79 | Deleting the commas from the locale form of an amount leaves digits that read back as the amount |
| Numbers.GroupedInjective | backend/agents/SalesAgent.js:79 | Different amounts never print alike in locale form |
| Numbers.TenthsShape | backend/agents/ReportAgent.js:58 | The one-decimal form is whole digits, a point, then exactly one digit, and its whole part has no leading zero unless it is zero |
| Numbers.TenthsRoundTrip | backend/agents/ReportAgent.js:58 | The one-decimal form of a count of tenths reads back as that count once the point is removed |
| Numbers.Thousandths | backend/agents/ReportAgent.js:126 | The locale form of the average is rounded to the thousandth nearest to it |
| Numbers.AmountWhole | backend/agents/ReportAgent.js:126 | A whole-number average prints exactly like the grouped integer, with no fraction |
| SalesStage.ExtractMonth | backend/agents/SalesAgent.js:58-69 | The result is an available month that the lower-cased query contains, and no earlier month in table order is mentioned; none exactly when no available month is mentioned |
| SalesStage.BreakdownSnoc | backend/agents/SalesAgent.js:77-82 | The weekly breakdown is a left-to-right join: one more week appends `, ` and its line |
| SalesStage.Process | backend/agents/SalesAgent.js:14-51 | Success exactly when the resolved month is in the table. No month gives the no-month message and an unknown month gives the no-data message. On success the payload is the table's record for that month and the message is its formatted breakdown |
| SalesStage.SucceedsIffMonthMentioned | backend/agents/SalesAgent.js:18-37 | Without a context month the stage succeeds exactly when the query names an available month, so the no-data branch is never reached |
| Seqs.FirstIndex | backend/agents/ReportAgent.js:83 | `indexOf`: the first position holding the value, or the end when there is none |
| ReportStage.PreviousMonth | backend/agents/ReportAgent.js:81-85 | A predecessor exists exactly for a month in the chronology other than its first, and it is the month just before it |
| ReportStage.GrowthTenths | backend/agents/ReportAgent.js:58 | The growth percentage in tenths lies within half a tenth of 1000 * growth / previous total, with the sign of the growth |
| ReportStage.Average | backend/agents/ReportAgent.js:47 | The average weekly revenue is non-negative and, multiplied by the number of weeks, gives back the total |
| ReportStage.Growth | backend/agents/ReportAgent.js:51-60 | Growth and percentage are both 0 without a previous month. When the previous month has a record, growth + previous total = total and the percentage is the rounded ratio of growth to the previous total |
| ReportStage.HighestIndex | backend/agents/ReportAgent.js:63 | The best week has the largest revenue and beats every earlier week strictly, so ties go to the earliest week |
| ReportStage.LowestIndex | backend/agents/ReportAgent.js:64 | The worst week has the smallest revenue and is strictly below every earlier week |
| ReportStage.HighestIsFirstMaximal | backend/agents/ReportAgent.js:63 | Any week that is maximal and strictly above all earlier weeks is the one the scan picks |
| ReportStage.LowestIsFirstMinimal | backend/agents/ReportAgent.js:64 | Any week that is minimal and strictly below all earlier weeks is the one the scan picks |
| ReportStage.CalculateAnalytics | backend/agents/ReportAgent.js:46-74 | average * number of weeks = total. Without a predecessor the growth is 0. With one, growth + previous total = total and the percentage is the rounded ratio. The best and worst weeks are the scans' picks |
| ReportStage.AnalyticsSignsAgree | backend/agents/ReportAgent.js:57-58 | The computed percentage never has the opposite sign to the growth it comes from |
| ReportStage.SignedPercentReadsBack | backend/agents/ReportAgent.js:123 | The printed percentage starts with `+` exactly when it is above zero and with `-` exactly when the growth is negative, so a small decline prints `-0.0`. After the sign it has the one-decimal shape, with the point before the last digit. Without its sign and point it reads back as the number of tenths |
| ReportStage.FormatSummary | backend/agents/ReportAgent.js:121-127 | The line starts with the month, grouped total and weekly average. A growth sentence naming the previous month and the signed percentage follows exactly when there is a previous month |
| ReportStage.CreateReport | backend/agents/ReportAgent.js:95-112 | The report keeps the month, total, weeks and analytics it was given, and its summary is the formatSummary line for that month, total and analytics |
| ReportStage.PredecessorRecorded | backend/agents/ReportAgent.js:54-59 | Every month with a predecessor has that predecessor in the table, so the growth is always computed |
| ReportStage.Process | backend/agents/ReportAgent.js:13-37 | Success exactly when sales data is present, with the fixed message otherwise. The report copies month, total and weeks, carries the computed analytics with a non-negative weekly average, and its summary is the formatSummary line for the month, total and those analytics. The same line is the stage's message |
| SummaryStage.DetermineTrend | backend/agents/SummaryAgent.js:70-88 | `performed well` exactly without a previous month. Otherwise each label is the band of the growth: above 10%, above 0, exactly 0, above -10%, the rest |
| SummaryStage.TrendMonotone | backend/agents/SummaryAgent.js:77-87 | More growth never earns a weaker label |
| SummaryStage.LabelsDistinct | backend/agents/SummaryAgent.js:72-86 | The six labels are different strings |
| SummaryStage.ThousandsTenths | backend/agents/SummaryAgent.js:97 | The `K` shorthand counts tenths of a thousand within half a tenth of the amount |
| SummaryStage.FormatCurrencyReadsBack | backend/agents/SummaryAgent.js:95-100 | Below 1000 the currency text is the exact amount. From 1000 up it is `$`, a one-decimal number with the point before its last digit, and `K`, and it reads back to within 50 of the amount |
| SummaryStage.Headline | backend/agents/SummaryAgent.js:44-55 | The headline opens with the trend label and the shorthand total. The signed percentage in parentheses follows exactly when there is a previous month |
| SummaryStage.CreateSummary | backend/agents/SummaryAgent.js:40-63 | The narrative is the headline, followed by a sentence naming the highest week and its revenue exactly when the best and worst weeks are both present |
| SummaryStage.Process | backend/agents/SummaryAgent.js:11-33 | Success exactly when a report is present, with the fixed message otherwise. The report is passed on unchanged and the message is its narrative |
| Classifier.Classify | backend/managers/AgentManager.js:174-209 | Each of the three intents is characterised exactly by which keyword groups the lower-cased message contains and whether it asks for raw data |
| Classifier.SummaryKeywordWins | backend/managers/AgentManager.js:178-191 | A summary keyword decides the intent whatever else the message says |
| Classifier.IgnoresCase | backend/managers/AgentManager.js:175 | A message and its lower-cased form get the same intent |
| Classifier.RawDataSalesKeywords | backend/managers/AgentManager.js:186-201 | `what were`, `show me` and `give me the data` lead to `sales` when no summary or report keyword occurs |
| Classifier.OtherSalesKeywordsDefaultToReport | backend/managers/AgentManager.js:194-204 | The other sales keywords lead to `report` unless the message asks for raw data |
| AgentManager.ReportResult | backend/managers/AgentManager.js:78 | On the orchestrator's path the Report stage fails exactly when the fetch did |
| AgentManager.SummaryResult | backend/managers/AgentManager.js:136 | The Summary stage fails exactly when the report did, and it passes the report on |
| AgentManager.Assemble | backend/managers/AgentManager.js:34-158 | The stages run in route order until the first failure. Each trace entry copies its stage's message and flag. Success and the final response are those of the last stage that ran. `data` is attached only to a successful sales run, `detailedReport` only to a successful report or summary run |
| AgentManager.ProcessMessage | backend/managers/AgentManager.js:17-158 | The intent is the classifier's. The agents used are a non-empty prefix of the intent's route, with one trace entry each. Every entry but the last succeeded, and a run cut short ends in a failure |
| AgentManager.ReportsLastStage | backend/managers/AgentManager.js:36-152 | `success` and `finalResponse` are those of the last entry of the execution flow |
| AgentManager.TraceCopiesStageResults | backend/managers/AgentManager.js:38-143 | Trace entry i holds the message and success flag of stage i as the orchestrator called it |
| AgentManager.DataAttached | backend/managers/AgentManager.js:51-53 | `data` is present exactly for a successful sales run, and it is the fetched month |
| AgentManager.ReportAttached | backend/managers/AgentManager.js:91-151 | `detailedReport` is present exactly for a successful report or summary run, and it is the Report stage's report |
| AgentManager.RequestSucceedsIffMonthMentioned | backend/managers/AgentManager.js:17-158 | A request succeeds exactly when the message names an available month |
| AgentManager.AgentsUsedByIntent | backend/managers/AgentManager.js:47-145 | The agents used are the whole route when the fetch succeeds, and the Sales agent alone otherwise |
| AgentManager.Recover | backend/managers/AgentManager.js:160-166 | A thrown stage turns the partial result into a failure with the fixed message and the error text, keeping intent, agents, trace and payloads |
| AgentManager.ThrowBeforeAnyStage | backend/managers/AgentManager.js:26-166 | A throw from the first stage gives a failure with the error text that lists no agent and no trace, whose execution details say that no agent ran |
| AgentManager.ExecutionDetails | backend/managers/AgentManager.js:216-228 | The fixed `No agents were executed.` text is returned exactly for an empty execution flow |
| AgentManager.StepsSnoc | backend/managers/AgentManager.js:222-225 | The numbered steps are a left-to-right walk: one more entry appends its step with the next number |
| AgentManager.ExecutionDetailsSnoc | backend/managers/AgentManager.js:216-228 | Each entry adds `i. agent: action` and its `Result:` line at the end, numbered by position, after the heading |
| ChatRoute.Envelope | backend/routes/chat.js:26-41 | The reply copies success, message, intent, report, data, trace and agents. The download is offered with the fixed URL exactly for report and summary intents |
| ChatRoute.Chat | backend/routes/chat.js:12-43 | A missing or empty message is rejected with `Message is required`. Any other message is answered with the envelope of the orchestrator's result |
| ChatRoute.PdfGate | backend/routes/chat.js:73-91 | A failed run is refused with its own message, and a successful sales run is refused naming its intent. Rendering happens exactly for a successful report or summary run, with the run's report and final message |
| ChatRoute.ChatPdf | backend/routes/chat.js:59-91 | A missing or empty message is refused. Any other message goes through the gate on the orchestrator's result |
| ChatRoute.RenderImpliesOffered | backend/routes/chat.js:37-91 | Whenever the document endpoint renders, the chat endpoint offered the download for the same message |
| ChatRoute.RenderedReportPresent | backend/routes/chat.js:91 | The renderer always receives a report, so its text-only fallback is never needed |
| ChatRoute.SalesNeverRendered | backend/routes/chat.js:81-88 | A sales query never reaches the renderer |
| ChatRoute.FailedRunRefused | backend/routes/chat.js:37-78 | A failed report or summary run is offered a download, and the document endpoint refuses it with the run's message |
| ChatRoute.OfferedButRefused | backend/routes/chat.js:37-78 | A report or summary question that names no month is offered a download, which is then refused with the no-month message |
| ChatRoute.OfferFollowsIntent | backend/routes/chat.js:37-41 | For a present message the download is offered exactly when the intent is report or summary |
| ChatRoute.RenderFollowsIntent | backend/routes/chat.js:73-91 | For a present message the document is rendered exactly for a successful report or summary run |
| ChatRoute.SalesRunRefused | backend/routes/chat.js:81-88 | A successful sales run is offered nothing and is refused with the wrong-intent reason. The error quotes `'sales'` and the suggestion is attached |
| ChatRoute.WrongIntentReply | backend/routes/chat.js:82-87 | The wrong-intent refusal's error quotes the refused intent's name, and the refusal carries that intent and the suggestion text |
| Scenarios.SeptemberHasNoBaseline | backend/agents/ReportAgent.js:81-85 | September, the first month of the chronology, has no previous month and zero growth |
| Scenarios.OctoberGrowth | backend/agents/ReportAgent.js:54-60 | October after September: growth 4500, percentage +24.3 |
| Scenarios.NovemberGrowth | backend/agents/ReportAgent.js:54-60 | November after October: growth 6500, percentage +28.3 |
| Scenarios.OctoberReportSummary | backend/agents/ReportAgent.js:121-127 | October's report line is `October Total: $23,000. Average weekly: $5,750. Growth: +24.3% vs. September.` |
| Scenarios.SeptemberReportSummary | backend/agents/ReportAgent.js:121-127 | September's report line is `September Total: $18,500. Average weekly: $4,625.`, with no growth sentence |
| Scenarios.NovemberReportSummary | backend/agents/ReportAgent.js:121-127 | November's report line is `November Total: $29,500. Average weekly: $7,375. Growth: +28.3% vs. October.` |
| Scenarios.CurrencyNumerals | backend/agents/SummaryAgent.js:95-100 | 23000 prints as `$23.0K` and 500 as `$500` |
| Scenarios.OctoberExtremes | backend/agents/ReportAgent.js:63-64 | October's best week is week 4 and its worst week is week 3 |
| Scenarios.OctoberNarrative | backend/agents/SummaryAgent.js:40-63 | October's narrative reads `Revenue grew strongly this month — total $23.0K (+24.3% from last month). Best performance in Week 4 ($7,000).` |
| Scenarios.SeptemberExtremes | backend/agents/ReportAgent.js:63-64 | September's best week is week 4 and its worst week is week 3 |
| Scenarios.SeptemberNarrative | backend/agents/SummaryAgent.js:40-63 | September's narrative reads `Revenue performed well this month — total $18.5K. Best performance in Week 4 ($5,000).`, with no comparison |
| Scenarios.AvailableListText | backend/agents/SalesAgent.js:23 | The failure messages list `September, October, November` |
| Scenarios.OctoberBreakdown | backend/agents/SalesAgent.js:77-82 | October's breakdown is `Week 1 - $5,000, Week 2 - $6,200, Week 3 - $4,800, Week 4 - $7,000` |
| RoutingScenarios.NamesOctober | backend/agents/SalesAgent.js:58-69 | A query that names October and not September resolves to October |
| RoutingScenarios.SalesQuery | backend/test-routing.js:9-14 | `What were the sales in October?` is a sales query that succeeds using the Sales agent alone |
| RoutingScenarios.ReportQuery | backend/test-routing.js:15-20 | `Give me the October report` is a report query that succeeds using the Sales and Report agents |
| RoutingScenarios.SummaryQuery | backend/test-routing.js:21-26 | `Summarize October sales` is a summary query that succeeds using all three agents |
| PdfScenarios.SalesQueryHasNoPdf | backend/test-pdf-availability.js:8-12 | The sales example is offered no download, and the document endpoint refuses it naming `sales` |
| PdfScenarios.ReportQueryHasPdf | backend/test-pdf-availability.js:13-17 | The report example is offered the download and rendered from its report |
| PdfScenarios.SummaryQueryHasPdf | backend/test-pdf-availability.js:18-22 | The summary example is offered the download and rendered |

## Left out

- HTTP transport: status codes, headers, the request body parser and the route-level `catch` that answers 500 are not modelled. Only the JSON bodies and the decisions are.
- PDF generation: the generator is outside this model. `Render` records the arguments it would receive. The attachment file name (`Date.now()`) is a clock read and is left out.
- Thrown errors: no stage can throw on the orchestrator's path in this model. `AgentManager.Recover` gives the `catch` block's result for a given partial result and error text. `AgentManager.Initial` is the partial result a throw from the first stage would leave, and `AgentManager.ThrowBeforeAnyStage` states what that throw returns.
- Logging (`console.log`) and `async`/`await` are left out; every step is a pure function.
- Message values: a message is `Option<string>`. JavaScript values of other types (numbers, objects) in the body are not modelled.
- Text.Lower: maps the ASCII letters only. `toLowerCase` also maps other Unicode letters, and some of them become ASCII letters. U+212A KELVIN SIGN becomes `k`, for example. The engine therefore reads `quic\u212A look` as a summary query, and the model does not.
- Numbers.AmountText: rounds the exact quotient to thousandths, halves up. The engine rounds the binary double nearest to the quotient, which can differ on a half. The weekly averages of the table are whole numbers.
- ReportStage.GrowthTenths: rounds the exact ratio, halves away from zero. `toFixed` rounds the double nearest to the ratio, and exponent notation for huge values is not modelled.
- ReportStage.Process: requires at least one week in present data. With no weeks the source computes `NaN` and `undefined` extremes. The Sales stage only passes table records, which have four weeks.
- SummaryStage.ThousandsTenths: rounds the exact quotient `amount / 1000` to tenths, halves up. `toFixed` rounds the double nearest to the quotient. For 1150 that double lies just below 1.15, so the engine prints `$1.1K` and the model `$1.2K`. The table's totals give the quotients 18.5, 23 and 29.5, which are exact doubles, so the two agree on them.
- SummaryStage.FormatCurrencyReadsBack: its bound of 50 holds for the model's rounding. The engine's output can sit exactly 50 away on such near-halves (1150 printed as `$1.1K`).
- SummaryStage.DetermineTrend: compares against the rounded percentage in tenths, as `parseFloat` of the `toFixed` text does. `-0.0` therefore counts as stable, as in the source.
- SalesStage.Process: takes the optional context month. The orchestrator never passes one, and its paths are modelled but not exercised by the scenarios.
- GetSalesDataByMonth: property lookups through the object prototype (`constructor`, `toString`) are not modelled. Only the table's own keys are found.

=== FILE: agent_manager.dfy ===
/** The orchestrator (`AgentManager`): route by intent, run a prefix of the stages, fill the envelope. */
module AgentManager {
  import opened Wrappers
  import opened Numbers
  import opened Stages
  import opened SalesStage
  import opened ReportStage
  import opened SummaryStage
  import opened Classifier

  datatype Agent = SalesAgent | ReportAgent | SummaryAgent {

    /** The identifier listed in `agentsUsed`. */
    function Id(): string {
      match this
      case SalesAgent => "sales"
      case ReportAgent => "report"
      case SummaryAgent => "summary"
    }

    function DisplayName(): string {
      match this
      case SalesAgent => "Sales Agent"
      case ReportAgent => "Report Agent"
      case SummaryAgent => "Summary Agent"
    }

    function Action(): string {
      match this
      case SalesAgent => "Fetch revenue data"
      case ReportAgent => "Create structured report"
      case SummaryAgent => "Summarize and format response"
    }
  }

  /**
   * One `executionFlow` entry. Its `agent` and `action` strings are fixed by
   * the agent, so the entry keeps the agent and derives them.
   */
  datatype TraceEntry = TraceEntry(agent: Agent, result: string, success: bool) {

    function AgentName(): string {
      agent.DisplayName()
    }

    function Action(): string {
      agent.Action()
    }
  }

  /** The entry pushed after `agent` returned `r`. */
  function Trace<P>(agent: Agent, r: StageResult<P>): (e: TraceEntry)
    ensures e.agent == agent && e.result == r.message && e.success == r.success
  {
    TraceEntry(agent, r.message, r.success)
  }

  /** The object `processMessage` returns. */
  datatype Outcome = Outcome(
    success: bool,
    finalResponse: string,
    queryIntent: Intent,
    agentsUsed: seq<Agent>,
    executionFlow: seq<TraceEntry>,
    data: Option<MonthData>,
    detailedReport: Option<Report>,
    error: Option<string>)

  /** The longest chain of stages an intent can run. */
  function Route(intent: Intent): seq<Agent> {
    match intent
    case Sales => [SalesAgent]
    case Report => [SalesAgent, ReportAgent]
    case Summary => [SalesAgent, ReportAgent, SummaryAgent]
  }

  /** The Sales stage as the orchestrator calls it: no context. */
  function SalesResult(message: string): (r: StageResult<MonthData>)
    ensures r.WellFormed() && Acceptable(r)
  {
    SalesStage.Process(message, None)
  }

  /** The Report stage on the Sales stage's result: it fails only when the fetch did. */
  function ReportResult(message: string): (r: StageResult<Report>)
    ensures r.WellFormed() && r.success == SalesResult(message).success
  {
    ReportStage.Process(SalesResult(message))
  }

  /** The Summary stage on the Report stage's result: it fails only when the report did, and passes the report on. */
  function SummaryResult(message: string): (r: StageResult<Report>)
    ensures r.WellFormed() && r.success == ReportResult(message).success
    ensures r.payload == ReportResult(message).payload
  {
    SummaryStage.Process(ReportResult(message))
  }

  /**
   * The trace shape: one entry per invoked stage, in invocation order, every
   * entry but the last a success, and a failure at the end whenever the run
   * stopped short of the intent's route.
   */
  predicate StopsAtFirstFailure(r: Outcome) {
    && 1 <= |r.agentsUsed| <= |Route(r.queryIntent)|
    && r.agentsUsed == Route(r.queryIntent)[..|r.agentsUsed|]
    && |r.executionFlow| == |r.agentsUsed|
    && (forall i :: 0 <= i < |r.agentsUsed| ==> r.executionFlow[i].agent == r.agentsUsed[i])
    && (forall i :: 0 <= i < |r.executionFlow| - 1 ==> r.executionFlow[i].success)
    && (|r.agentsUsed| < |Route(r.queryIntent)| ==> !r.executionFlow[|r.executionFlow| - 1].success)
  }

  /**
   * The `try` block of `processMessage` once the intent is known, given what
   * each stage returns when called: the route's stages run in order and the
   * first failure ends the run.
   */
  function Assemble(intent: Intent, sales: StageResult<MonthData>, report: StageResult<Report>,
                    summary: StageResult<Report>): (r: Outcome)
    ensures r.queryIntent == intent
    ensures StopsAtFirstFailure(r)
    ensures r.executionFlow[0] == Trace(SalesAgent, sales)
    ensures |r.executionFlow| >= 2 ==> r.executionFlow[1] == Trace(ReportAgent, report)
    ensures |r.executionFlow| >= 3 ==> r.executionFlow[2] == Trace(SummaryAgent, summary)
    ensures r.success == r.executionFlow[|r.executionFlow| - 1].success
    ensures r.finalResponse == r.executionFlow[|r.executionFlow| - 1].result
    ensures r.data == if intent == Sales && sales.success then sales.payload else None
    ensures r.detailedReport == if |r.agentsUsed| == 2 && report.success then report.payload
                                else if |r.agentsUsed| == 3 && summary.success then summary.payload
                                else None
    ensures r.error.None?
  {
    var salesTrace := Trace(SalesAgent, sales);
    match intent
    case Sales =>
      Outcome(sales.success, sales.message, intent, [SalesAgent], [salesTrace],
              if sales.success then sales.payload else None, None, None)
    case Report =>
      if !sales.success then
        Outcome(false, sales.message, intent, [SalesAgent], [salesTrace], None, None, None)
      else
        Outcome(report.success, report.message, intent, [SalesAgent, ReportAgent],
                [salesTrace, Trace(ReportAgent, report)],
                None, if report.success then report.payload else None, None)
    case Summary =>
      if !sales.success then
        Outcome(false, sales.message, intent, [SalesAgent], [salesTrace], None, None, None)
      else
        var reportTrace := Trace(ReportAgent, report);
        if !report.success then
          Outcome(false, report.message, intent, [SalesAgent, ReportAgent], [salesTrace, reportTrace], None, None, None)
        else
          Outcome(summary.success, summary.message, intent, [SalesAgent, ReportAgent, SummaryAgent],
                  [salesTrace, reportTrace, Trace(SummaryAgent, summary)],
                  None, if summary.success then summary.payload else None, None)
  }

  /** `processMessage` (the `try` block; see `Recover` for the `catch`). */
  function ProcessMessage(message: string): (r: Outcome)
    ensures r.queryIntent == Classify(message)
    ensures StopsAtFirstFailure(r)
    ensures r.error.None?
  {
    Assemble(Classify(message), SalesResult(message), ReportResult(message), SummaryResult(message))
  }

  /** `success` and `finalResponse` are those of the last stage that ran. */
  lemma ReportsLastStage(message: string)
    ensures var r := ProcessMessage(message); var flow := r.executionFlow;
      && (|flow| == 1 ==> r.success == flow[0].success && r.finalResponse == flow[0].result)
      && (|flow| == 2 ==> r.success == flow[1].success && r.finalResponse == flow[1].result)
      && (|flow| == 3 ==> r.success == flow[2].success && r.finalResponse == flow[2].result)
  {
  }

  /** Each trace entry carries the message and success flag of the stage it records. */
  lemma TraceCopiesStageResults(message: string)
    ensures var flow := ProcessMessage(message).executionFlow;
      && flow[0] == Trace(SalesAgent, SalesResult(message))
      && (|flow| >= 2 ==> flow[1] == Trace(ReportAgent, ReportResult(message)))
      && (|flow| >= 3 ==> flow[2] == Trace(SummaryAgent, SummaryResult(message)))
  {
  }

  /** `data` is attached only to a successful `sales` run, where it is the fetched month. */
  lemma DataAttached(message: string)
    ensures var r := ProcessMessage(message);
      && (r.data.Some? <==> r.queryIntent == Sales && r.success)
      && (r.data.Some? ==> r.data == SalesResult(message).payload)
  {
  }

  /** `detailedReport` is attached only to a successful `report` or `summary` run, where it is the Report stage's report. */
  lemma ReportAttached(message: string)
    ensures var r := ProcessMessage(message);
      && (r.detailedReport.Some? <==> r.queryIntent != Sales && r.success)
      && (r.detailedReport.Some? ==> r.detailedReport == ReportResult(message).payload)
  {
  }

  /**
   * The whole request succeeds exactly when the message names an available
   * month: only the Sales stage can fail on the orchestrator's path.
   */
  lemma RequestSucceedsIffMonthMentioned(message: string)
    ensures ProcessMessage(message).success <==> ExtractMonth(message).Some?
  {
    SalesStage.SucceedsIffMonthMentioned(message);
  }

  /** `agentsUsed` by intent: a failed fetch stops every route after its first stage, and nothing else stops one. */
  lemma AgentsUsedByIntent(message: string)
    ensures var r := ProcessMessage(message);
      r.agentsUsed == if SalesResult(message).success then Route(r.queryIntent) else [SalesAgent]
  {
  }

  /** The object the `catch` block returns when a stage throws. */
  function Recover(partial: Outcome, detail: string): (r: Outcome)
    ensures !r.success && r.error == Some(detail)
    ensures r.finalResponse == "An error occurred while processing your request."
    ensures r.queryIntent == partial.queryIntent && r.agentsUsed == partial.agentsUsed
    ensures r.executionFlow == partial.executionFlow
    ensures r.data == partial.data && r.detailedReport == partial.detailedReport
  {
    partial.(success := false, finalResponse := "An error occurred while processing your request.", error := Some(detail))
  }

  /** The object as initialised before the `try`, which is what a throw from the first stage leaves behind. */
  function Initial(intent: Intent): Outcome {
    Outcome(true, "", intent, [], [], None, None, None)
  }

  /**
   * A throw from the first stage leaves nothing executed: the failure lists no
   * agent, and the execution details say that none ran.
   */
  lemma ThrowBeforeAnyStage(intent: Intent, detail: string)
    ensures var r := Recover(Initial(intent), detail);
      && !r.success && r.queryIntent == intent && r.error == Some(detail)
      && r.agentsUsed == [] && r.executionFlow == []
      && ExecutionDetails(r.executionFlow) == "No agents were executed."
  {
  }

  /** One numbered step of `getExecutionDetails`. */
  function StepText(n: nat, e: TraceEntry): string {
    NatToString(n) + ". " + e.AgentName() + ": " + e.Action() + "\n" + "   Result: " + e.result + "\n"
  }

  /** The steps of `flow`, numbered from `n`. */
  function StepsFrom(flow: seq<TraceEntry>, n: nat): string {
    if |flow| == 0 then "" else StepText(n, flow[0]) + StepsFrom(flow[1..], n + 1)
  }

  /** `getExecutionDetails`, on the result's `executionFlow`. */
  function ExecutionDetails(flow: seq<TraceEntry>): (s: string)
    ensures |flow| == 0 <==> s == "No agents were executed."
  {
    if |flow| == 0 then "No agents were executed." else "Execution Flow:\n" + StepsFrom(flow, 1)
  }

  /** The steps are a left-to-right walk: a later entry adds its numbered step at the end. */
  lemma {:induction false} StepsSnoc(flow: seq<TraceEntry>, e: TraceEntry, n: nat)
    ensures StepsFrom(flow + [e], n) == StepsFrom(flow, n) + StepText(n + |flow|, e)
  {
    if |flow| == 0 {
      assert StepsFrom([e], n) == StepText(n, e) + StepsFrom([], n + 1);
    } else {
      assert (flow + [e])[1..] == flow[1..] + [e];
      StepsSnoc(flow[1..], e, n + 1);
    }
  }

  /**
   * Each trace entry contributes `i. agent: action` and its `Result:` line,
   * numbered by its position, after the heading.
   */
  lemma ExecutionDetailsSnoc(flow: seq<TraceEntry>, e: TraceEntry)
    ensures ExecutionDetails(flow + [e])
            == (if |flow| == 0 then "Execution Flow:\n" else ExecutionDetails(flow)) + StepText(|flow| + 1, e)
  {
    StepsSnoc(flow, e, 1);
    if |flow| == 0 {
      assert flow + [e] == [e];
    }
  }
}

=== FILE: chat_route.dfy ===
/** The decisions `routes/chat.js` takes around the orchestrator; transport is left out. */
module ChatRoute {
  import opened Wrappers
  import opened Text
  import opened Stages
  import opened SalesStage
  import opened ReportStage
  import opened Classifier
  import opened AgentManager

  /** The extra fields added for report and summary queries. */
  datatype PdfOffer = PdfOffer(pdfDownloadUrl: string, pdfNote: string)

  /** The JSON body `POST /chat` answers with. */
  datatype ChatReply =
    | Rejected(error: string)
    | Answered(
        success: bool,
        message: string,
        queryIntent: Intent,
        detailedReport: Option<Report>,
        data: Option<MonthData>,
        executionFlow: seq<TraceEntry>,
        agentsUsed: seq<Agent>,
        pdf: Option<PdfOffer>)
  {
    /** `pdfAvailable`: true when the offer is attached, absent otherwise. */
    predicate PdfAvailable() {
      Answered? && pdf.Some?
    }
  }

  /** `!message`: no message, or the empty string. */
  predicate Missing(message: Option<string>) {
    message.None? || message.value == ""
  }

  /** Intents for which a document can be produced. */
  predicate OffersPdf(intent: Intent) {
    intent.Report? || intent.Summary?
  }

  function PdfUrl(): string {
    "/api/chat/pdf"
  }

  // Long texts are written as a concatenation of short pieces: the verifier
  // handles several short literals much more cheaply than one long one.

  function PdfNote(): string {
    "You can download " + "a PDF version " + "by making " + "a POST request "
      + "to the " + "pdfDownloadUrl " + "with the " + "same message."
  }

  /** The reply built from an orchestrator result. */
  function Envelope(result: Outcome): (reply: ChatReply)
    ensures reply.Answered?
    ensures reply.success == result.success && reply.message == result.finalResponse
    ensures reply.queryIntent == result.queryIntent && reply.agentsUsed == result.agentsUsed
    ensures reply.executionFlow == result.executionFlow
    ensures reply.data == result.data && reply.detailedReport == result.detailedReport
    ensures reply.PdfAvailable() <==> OffersPdf(result.queryIntent)
    ensures reply.PdfAvailable() ==> reply.pdf.value.pdfDownloadUrl == PdfUrl()
  {
    Answered(result.success, result.finalResponse, result.queryIntent, result.detailedReport, result.data,
             result.executionFlow, result.agentsUsed,
             if OffersPdf(result.queryIntent) then Some(PdfOffer(PdfUrl(), PdfNote())) else None)
  }

  /** `POST /chat`. */
  function Chat(message: Option<string>): (reply: ChatReply)
    ensures Missing(message) <==> reply == Rejected("Message is required")
    ensures !Missing(message) ==> reply == Envelope(ProcessMessage(message.value))
  {
    if Missing(message) then Rejected("Message is required") else Envelope(ProcessMessage(message.value))
  }

  /** The refusal text around the quoted intent name. */
  function RefusalHead(): string {
    "PDF generation " + "is only available " + "for report and " + "summary queries. "
      + "Your query " + "was classified as "
  }

  function RefusalTail(): string {
    ". " + "Please ask for " + "a report or summary."
  }

  function WrongIntentMessage(intent: Intent): string {
    RefusalHead() + ("'" + intent.Name() + "'") + RefusalTail()
  }

  function SuggestionText(): string {
    "Try asking for a \"report\", \"summary\", or \"analysis\" instead."
  }

  /**
   * What `POST /chat/pdf` does: refuse, for one of three reasons, or call the
   * renderer with these arguments. A refusal's JSON fields are derived from
   * its reason.
   */
  datatype PdfReply =
    | NoMessage
    | RunFailed(failure: string)
    | WrongIntent(intent: Intent)
    | Render(report: Option<Report>, fallbackText: string)
  {
    /** The `error` field of a refusal. */
    function Error(): string
      requires !Render?
    {
      match this
      case NoMessage => "Message is required"
      case RunFailed(failure) => failure
      case WrongIntent(intent) => WrongIntentMessage(intent)
    }

    /** The `queryIntent` field, present only on the wrong-intent refusal. */
    function QueryIntent(): Option<Intent> {
      if WrongIntent? then Some(intent) else None
    }

    /** The `suggestion` field, present only on the wrong-intent refusal. */
    function Suggestion(): Option<string> {
      if WrongIntent? then Some(SuggestionText()) else None
    }
  }

  /**
   * The checks after the orchestrator ran: a failed result first, then an
   * intent other than report or summary; otherwise the renderer gets the
   * report (when there is one) and the final message.
   */
  function PdfGate(result: Outcome): (reply: PdfReply)
    ensures !result.success ==> reply == RunFailed(result.finalResponse)
    ensures result.success && !OffersPdf(result.queryIntent) ==> reply == WrongIntent(result.queryIntent)
    ensures reply.Render? <==> result.success && OffersPdf(result.queryIntent)
    ensures reply.Render? ==> reply.report == result.detailedReport && reply.fallbackText == result.finalResponse
  {
    if !result.success then RunFailed(result.finalResponse)
    else if !OffersPdf(result.queryIntent) then WrongIntent(result.queryIntent)
    else Render(result.detailedReport, result.finalResponse)
  }

  /** `POST /chat/pdf`. */
  function ChatPdf(message: Option<string>): (reply: PdfReply)
    ensures Missing(message) <==> reply == NoMessage
    ensures !Missing(message) ==> reply == PdfGate(ProcessMessage(message.value))
  {
    if Missing(message) then NoMessage else PdfGate(ProcessMessage(message.value))
  }

  /** Whenever the document endpoint renders, the chat endpoint offered the download for the same message. */
  lemma RenderImpliesOffered(message: string)
    ensures ChatPdf(Some(message)).Render? ==> Chat(Some(message)).PdfAvailable()
  {
  }

  /** The renderer always receives a report: its text-only fallback is never needed. */
  lemma RenderedReportPresent(message: string)
    ensures ChatPdf(Some(message)).Render? ==> ChatPdf(Some(message)).report.Some?
  {
    ReportAttached(message);
  }

  /** A `sales` query never reaches the renderer. */
  lemma SalesNeverRendered(message: string)
    requires Classify(message) == Sales
    ensures !ChatPdf(Some(message)).Render?
  {
  }

  /** A failed report or summary run is offered a document, and the document endpoint refuses it with the run's message. */
  lemma FailedRunRefused(r: Outcome)
    requires !r.success && OffersPdf(r.queryIntent)
    ensures Envelope(r).PdfAvailable()
    ensures PdfGate(r) == RunFailed(r.finalResponse)
  {
  }

  /**
   * The offer depends on the intent alone, the document on success as well:
   * a report or summary question that names no month is offered a download
   * that the document endpoint then refuses with the month-lookup message.
   */
  lemma OfferedButRefused(message: string)
    requires message != "" && OffersPdf(Classify(message)) && ExtractMonth(message).None?
    ensures Chat(Some(message)).PdfAvailable()
    ensures ChatPdf(Some(message)) == RunFailed(NoMonthMessage())
  {
    var r := ProcessMessage(message);
    assert SalesResult(message) == Failed(NoMonthMessage());
    AgentsUsedByIntent(message);
    TraceCopiesStageResults(message);
    ReportsLastStage(message);
    assert !r.success && r.finalResponse == NoMonthMessage();
    FailedRunRefused(r);
  }

  /** For a present message the offer depends on its intent alone. */
  lemma OfferFollowsIntent(message: string)
    requires message != ""
    ensures Chat(Some(message)).PdfAvailable() <==> OffersPdf(Classify(message))
  {
  }

  /** For a present message the document is rendered exactly for a successful report or summary run. */
  lemma RenderFollowsIntent(message: string)
    requires message != ""
    ensures ChatPdf(Some(message)).Render? <==> ProcessMessage(message).success && OffersPdf(Classify(message))
  {
  }

  /**
   * A successful `sales` run is not offered a document and is refused one. The
   * error quotes `'sales'` and the suggestion is attached.
   */
  lemma SalesRunRefused(r: Outcome)
    requires r.success && r.queryIntent == Sales
    ensures !Envelope(r).PdfAvailable()
    ensures PdfGate(r) == WrongIntent(Sales)
    ensures Contains(PdfGate(r).Error(), "'sales'")
    ensures PdfGate(r).Suggestion() == Some(SuggestionText())
  {
    WrongIntentReply(Sales);
    assert "'" + Sales.Name() + "'" == "'sales'";
  }

  /**
   * The wrong-intent refusal quotes the refused intent's name in its error and
   * carries the suggestion to ask for a report, summary or analysis.
   */
  lemma WrongIntentReply(intent: Intent)
    ensures Contains(WrongIntent(intent).Error(), "'" + intent.Name() + "'")
    ensures WrongIntent(intent).Suggestion() == Some(SuggestionText())
    ensures WrongIntent(intent).QueryIntent() == Some(intent)
  {
    var head, quoted := RefusalHead(), "'" + intent.Name() + "'";
    var msg := WrongIntentMessage(intent);
    assert msg[|head|..|head| + |quoted|] == quoted;
    assert OccursAt(msg, quoted, |head|);
  }
}

=== FILE: classifier.dfy ===
/** `determineQueryIntent`: priority-ordered keyword matching on the lower-cased message. */
module Classifier {
  import opened Text

  datatype Intent = Sales | Report | Summary {

    /** The identifier the service reports (`queryIntent`). */
    function Name(): string {
      match this
      case Sales => "sales"
      case Report => "report"
      case Summary => "summary"
    }
  }

  /** Highest priority. */
  function SummaryKeywords(): seq<string> {
    ["summary", "summarize", "overview", "brief", "concise", "quick look"]
  }

  /** Middle priority. */
  function ReportKeywords(): seq<string> {
    ["report", "analytics", "analysis", "breakdown", "detailed", "stats", "statistics", "performance"]
  }

  /** Lowest priority. */
  function SalesKeywords(): seq<string> {
    ["sales", "revenue", "what were", "show me", "get me", "give me the data", "fetch"]
  }

  /** `keywords.some(k => text.includes(k))`. */
  predicate HasAny(text: string, keywords: seq<string>) {
    exists k | k in keywords :: Contains(text, k)
  }

  /** The phrasings that keep a sales-keyword message on the raw-data path. */
  predicate AsksForRawData(text: string) {
    Contains(text, "data") || Contains(text, "what were") || Contains(text, "show me")
  }

  /**
   * `determineQueryIntent`, branch for branch. The tests after the sales
   * keyword follow the source, including its `!hasReportKeyword` conjunct.
   */
  function Classify(message: string): (r: Intent)
    ensures var text := Lower(message);
      && (r == Summary <==> HasAny(text, SummaryKeywords()) || (!HasAny(text, ReportKeywords()) && !HasAny(text, SalesKeywords())))
      && (r == Report <==> !HasAny(text, SummaryKeywords())
                           && (HasAny(text, ReportKeywords()) || (HasAny(text, SalesKeywords()) && !AsksForRawData(text))))
      && (r == Sales <==> !HasAny(text, SummaryKeywords()) && !HasAny(text, ReportKeywords())
                          && HasAny(text, SalesKeywords()) && AsksForRawData(text))
  {
    var text := Lower(message);
    var hasSummaryKeyword := HasAny(text, SummaryKeywords());
    var hasReportKeyword := HasAny(text, ReportKeywords());
    var hasSalesKeyword := HasAny(text, SalesKeywords());
    if hasSummaryKeyword then Summary
    else if hasReportKeyword then Report
    else if hasSalesKeyword then
      if Contains(text, "data") && !hasReportKeyword then Sales
      else if Contains(text, "what were") || Contains(text, "show me") then Sales
      else Report
    else Summary
  }

  /** A summary keyword decides the intent whatever else the message says. */
  lemma SummaryKeywordWins(message: string, k: string)
    requires k in SummaryKeywords() && Contains(Lower(message), k)
    ensures Classify(message) == Summary
  {
  }

  /** Case does not matter: a message and its lower-cased form get the same intent. */
  lemma IgnoresCase(message: string)
    ensures Classify(Lower(message)) == Classify(message)
  {
    LowerIdempotent(message);
  }

  /**
   * Three of the sales keywords already contain a raw-data phrasing, so on
   * their own they always lead to `sales`.
   */
  lemma RawDataSalesKeywords(message: string, k: string)
    requires k in ["what were", "show me", "give me the data"]
    requires Contains(Lower(message), k)
    requires !HasAny(Lower(message), SummaryKeywords()) && !HasAny(Lower(message), ReportKeywords())
    ensures Classify(message) == Sales
  {
    var text := Lower(message);
    assert k in SalesKeywords();
    if k == "give me the data" {
      assert OccursAt(k, "data", 12);
      ContainsTransitive(text, k, "data");
    }
  }

  /**
   * The other four sales keywords fall back to `report` unless the message
   * also asks for raw data.
   */
  lemma OtherSalesKeywordsDefaultToReport(message: string, k: string)
    requires k in ["sales", "revenue", "get me", "fetch"]
    requires Contains(Lower(message), k) && !AsksForRawData(Lower(message))
    requires !HasAny(Lower(message), SummaryKeywords())
    ensures Classify(message) == Report
  {
    assert k in SalesKeywords();
  }
}

=== FILE: numbers.dfy ===
/**
 * Number rendering used by the stages: `Number.prototype.toString` and the
 * en-US `toLocaleString` on whole and fractional non-negative amounts, and
 * `toFixed(1)` on tenths.
 */
module Numbers {
  import opened Text

  predicate IsDigit(c: char) {
    '0' <= c <= '9'
  }

  predicate AllDigits(s: string) {
    forall i :: 0 <= i < |s| ==> IsDigit(s[i])
  }

  function DigitChar(d: nat): (c: char)
    requires d < 10
    ensures IsDigit(c)
  {
    ('0' as int + d) as char
  }

  function DigitValue(c: char): nat
    requires IsDigit(c)
  {
    c as int - '0' as int
  }

  /** Decimal numeral of `n` without leading zeros (`String(n)`). */
  function NatToString(n: nat): (s: string)
    ensures |s| >= 1 && AllDigits(s)
    ensures s[0] == '0' ==> n == 0
    decreases n
  {
    if n < 10 then [DigitChar(n)] else NatToString(n / 10) + [DigitChar(n % 10)]
  }

  /** Reference reading of a digit string, most significant digit first. */
  function ParseDigits(s: string): nat
    requires AllDigits(s)
  {
    if |s| == 0 then 0 else ParseDigits(s[..|s| - 1]) * 10 + DigitValue(s[|s| - 1])
  }

  /** Reading a numeral back gives the number it was printed from. */
  lemma {:induction false} ParseNatToString(n: nat)
    ensures ParseDigits(NatToString(n)) == n
    decreases n
  {
    var s := NatToString(n);
    if n >= 10 {
      ParseNatToString(n / 10);
      assert s[..|s| - 1] == NatToString(n / 10);
    }
  }

  /** Three digits with leading zeros, the shape of every group after the first. */
  function Pad3(k: nat): (s: string)
    requires k < 1000
    ensures |s| == 3 && AllDigits(s)
  {
    [DigitChar(k / 100), DigitChar(k / 10 % 10), DigitChar(k % 10)]
  }

  /** Above 999 a numeral splits into its thousands and its last three digits. */
  lemma NatToStringThousands(n: nat)
    requires n >= 1000
    ensures NatToString(n) == NatToString(n / 1000) + Pad3(n % 1000)
  {
    assert n / 10 / 10 == n / 100;
    assert n / 100 / 10 == n / 1000;
    assert n % 1000 / 100 == n / 100 % 10;
    assert n % 1000 / 10 % 10 == n / 10 % 10;
    assert n % 1000 % 10 == n % 10;
    calc {
      NatToString(n);
      NatToString(n / 10) + [DigitChar(n % 10)];
      NatToString(n / 100) + [DigitChar(n / 10 % 10)] + [DigitChar(n % 10)];
      NatToString(n / 1000) + [DigitChar(n / 100 % 10)] + [DigitChar(n / 10 % 10)] + [DigitChar(n % 10)];
    }
  }

  /** `n.toLocaleString()` for a whole number: digits grouped in threes by commas. */
  function Grouped(n: nat): (s: string)
    ensures |s| >= 1
    ensures ',' !in s <==> n < 1000
    decreases n
  {
    if n < 1000 then NatToString(n) else Grouped(n / 1000) + "," + Pad3(n % 1000)
  }

  lemma DigitsHaveNoComma(s: string)
    requires AllDigits(s)
    ensures ',' !in s
  {
  }

  /** Deleting the separators from the grouped form gives the plain numeral. */
  lemma {:induction false} GroupedDigits(n: nat)
    ensures Remove(Grouped(n), ',') == NatToString(n)
    decreases n
  {
    if n < 1000 {
      RemoveAbsent(NatToString(n), ',');
    } else {
      GroupedDigits(n / 1000);
      RemoveAppend(Grouped(n / 1000) + ",", Pad3(n % 1000), ',');
      RemoveAppend(Grouped(n / 1000), ",", ',');
      RemoveAbsent(Pad3(n % 1000), ',');
      NatToStringThousands(n);
    }
  }

  /** The grouped form reads back as the number it was printed from. */
  lemma GroupedRoundTrip(n: nat)
    ensures AllDigits(Remove(Grouped(n), ','))
    ensures ParseDigits(Remove(Grouped(n), ',')) == n
  {
    GroupedDigits(n);
    ParseNatToString(n);
  }

  /** Distinct amounts never print alike. */
  lemma GroupedInjective(a: nat, b: nat)
    requires Grouped(a) == Grouped(b)
    ensures a == b
  {
    GroupedRoundTrip(a);
    GroupedRoundTrip(b);
  }

  /**
   * The en-US grouping shape: a leading group of one to three digits, then
   * groups of a comma followed by exactly three digits.
   */
  predicate WellGrouped(s: string)
    decreases |s|
  {
    if ',' in s then
      |s| >= 5 && s[|s| - 4] == ',' && AllDigits(s[|s| - 3..]) && WellGrouped(s[..|s| - 4])
    else
      1 <= |s| <= 3 && AllDigits(s)
  }

  /** A number below 1000 has at most three digits. */
  lemma ShortNumeral(n: nat)
    requires n < 1000
    ensures |NatToString(n)| <= 3
  {
    if n >= 10 {
      assert |NatToString(n / 10)| <= 2 by {
        if n / 10 >= 10 {
          assert |NatToString(n / 100)| == 1;
        }
      }
    }
  }

  /** The locale form has the grouping shape, and it starts with `0` only for zero. */
  lemma {:induction false} GroupedShape(n: nat)
    ensures WellGrouped(Grouped(n))
    ensures Grouped(n)[0] == '0' ==> n == 0
    decreases n
  {
    if n < 1000 {
      ShortNumeral(n);
      DigitsHaveNoComma(NatToString(n));
    } else {
      GroupedShape(n / 1000);
      var head := Grouped(n / 1000);
      var s := head + "," + Pad3(n % 1000);
      assert Grouped(n) == s;
      assert s[|s| - 4] == ',';
      assert s[|s| - 3..] == Pad3(n % 1000);
      assert s[..|s| - 4] == head;
      assert s[0] == head[0];
    }
  }

  /** The `toFixed(1)` shape: whole digits, a point, then exactly one digit. */
  predicate OneDecimal(s: string) {
    && |s| >= 3
    && s[|s| - 2] == '.'
    && AllDigits(s[..|s| - 2])
    && IsDigit(s[|s| - 1])
  }

  /** `(t / 10).toFixed(1)` for a non-negative count of tenths `t`. */
  function TenthsText(t: nat): string {
    NatToString(t / 10) + "." + [DigitChar(t % 10)]
  }

  /**
   * The one-decimal form has the point before its last digit, and its whole part
   * has no leading zero unless the whole part is zero.
   */
  lemma TenthsShape(t: nat)
    ensures OneDecimal(TenthsText(t))
    ensures TenthsText(t)[0] == '0' ==> t < 10
  {
    var w := NatToString(t / 10);
    var s := TenthsText(t);
    assert s == w + "." + [DigitChar(t % 10)];
    assert s[..|s| - 2] == w;
    assert s[0] == w[0];
  }

  /** Dropping the decimal point from the one-decimal form reads back as the count of tenths. */
  lemma TenthsRoundTrip(t: nat)
    ensures AllDigits(Remove(TenthsText(t), '.'))
    ensures ParseDigits(Remove(TenthsText(t), '.')) == t
  {
    var whole := NatToString(t / 10);
    var last := [DigitChar(t % 10)];
    assert Remove(TenthsText(t), '.') == whole + last by {
      RemoveAppend(whole + ".", last, '.');
      RemoveAppend(whole, ".", '.');
      RemoveAbsent(whole, '.');
      RemoveAbsent(last, '.');
    }
    var r := whole + last;
    assert AllDigits(r);
    assert r[..|r| - 1] == whole;
    assert DigitValue(r[|r| - 1]) == t % 10;
    ParseNatToString(t / 10);
    assert ParseDigits(r) == (t / 10) * 10 + t % 10;
  }

  /** `f / 1000` as the fraction digits `toLocaleString` shows: up to three, no trailing zeros. */
  function FractionText(f: nat): (s: string)
    requires f < 1000
    ensures f == 0 <==> s == ""
  {
    if f == 0 then ""
    else if f % 100 == 0 then "." + [DigitChar(f / 100)]
    else if f % 10 == 0 then "." + Pad3(f)[..2]
    else "." + Pad3(f)
  }

  /** The thousandths nearest to `x`, halves rounded up. */
  function Thousandths(x: real): (m: nat)
    requires x >= 0.0
    ensures (m as real) - 0.5 <= x * 1000.0 < (m as real) + 0.5
  {
    (x * 1000.0 + 0.5).Floor
  }

  /**
   * `x.toLocaleString()` for a non-negative amount: the grouped whole part
   * followed by at most three fraction digits.
   */
  function AmountText(x: real): string
    requires x >= 0.0
  {
    var m := Thousandths(x);
    Grouped(m / 1000) + FractionText(m % 1000)
  }

  /** A whole amount prints exactly like the grouped integer. */
  lemma AmountWhole(n: nat)
    ensures AmountText(n as real) == Grouped(n)
  {
    var m := Thousandths(n as real);
    assert (n as real) * 1000.0 == (n * 1000) as real;
    assert m == n * 1000;
    assert m / 1000 == n && m % 1000 == 0;
  }
}

=== FILE: pdf_scenarios.dfy ===
/** The document-endpoint examples the service ships with. */
module PdfScenarios {
  import opened Wrappers
  import opened Classifier
  import opened AgentManager
  import opened ChatRoute
  import opened RoutingScenarios

  /** A `sales` answer carries no download offer, and the document endpoint names the intent it refused. */
  lemma SalesQueryHasNoPdf(message: string)
    requires message == "What were the sales in October?"
    ensures !Chat(Some(message)).PdfAvailable()
    ensures ChatPdf(Some(message)) == WrongIntent(Sales)
    ensures ChatPdf(Some(message)).QueryIntent() == Some(Sales)
  {
    SalesQuery(message);
    SalesRunRefused(ProcessMessage(message));
  }

  /** A `report` answer offers the download, and the document is rendered from the report. */
  lemma ReportQueryHasPdf(message: string)
    requires message == "Give me the October report"
    ensures Chat(Some(message)).PdfAvailable()
    ensures ChatPdf(Some(message)).Render? && ChatPdf(Some(message)).report.Some?
  {
    ReportQuery(message);
    OfferFollowsIntent(message);
    RenderFollowsIntent(message);
    RenderedReportPresent(message);
  }

  /** A `summary` answer offers the download too, and the document endpoint renders it. */
  lemma SummaryQueryHasPdf(message: string)
    requires message == "Summarize October sales"
    ensures Chat(Some(message)).PdfAvailable()
    ensures ChatPdf(Some(message)).Render?
  {
    SummaryQuery(message);
    OfferFollowsIntent(message);
    RenderFollowsIntent(message);
  }
}

=== FILE: report_stage.dfy ===
/** The Report stage (`ReportAgent`): analytics over one month and a one-line summary. */
module ReportStage {
  import opened Wrappers
  import opened Seqs
  import opened Text
  import opened Numbers
  import opened SalesData
  import opened Stages
  import opened SalesStage

  /**
   * `analytics`. `growthTenths` is `growthPercentage` as a whole number of
   * tenths of a percent; the best and worst weeks are optional because the
   * Summary stage tests them for presence.
   */
  datatype Analytics = Analytics(
    averageWeekly: real,
    growth: int,
    growthTenths: int,
    previousMonth: Option<string>,
    highestWeek: Option<Week>,
    lowestWeek: Option<Week>)

  datatype Report = Report(month: string, total: nat, weeklyData: seq<Week>, analytics: Analytics, summary: string)

  /** The fixed chronology `getPreviousMonth` consults; it runs one month past the table. */
  function MonthOrder(): seq<string> {
    ["September", "October", "November", "December"]
  }

  /** `getPreviousMonth`: the chronological predecessor, absent for the first month and unknown names. */
  function PreviousMonth(month: string): (r: Option<string>)
    ensures r.Some? <==> month in MonthOrder()[1..]
    ensures r.Some? ==> exists i :: 1 <= i < |MonthOrder()| && MonthOrder()[i] == month && MonthOrder()[i - 1] == r.value
  {
    var order := MonthOrder();
    var k := FirstIndex(order, month);
    if 0 < k < |order| then Some(order[k - 1]) else None
  }

  function Abs(x: int): nat {
    if x < 0 then -x else x
  }

  /**
   * `((growth / prevTotal) * 100).toFixed(1)` as tenths of a percent: the
   * nearest whole number of tenths, a half rounded away from zero, with the
   * sign of the growth.
   */
  function GrowthTenths(growth: int, prevTotal: nat): (t: int)
    requires prevTotal > 0
    ensures -(prevTotal as int) <= 2 * (1000 * Abs(growth) - prevTotal * Abs(t)) < prevTotal
    ensures growth >= 0 ==> t >= 0
    ensures growth <= 0 ==> t <= 0
  {
    var m := (2000 * Abs(growth) + prevTotal) / (2 * prevTotal);
    if growth < 0 then -m else m
  }

  /**
   * The left-to-right `reduce` that keeps the running best week, replacing it
   * only on a strictly greater revenue: the first maximal week.
   */
  function HighestIndex(weeks: seq<Week>): (k: nat)
    requires |weeks| > 0
    ensures k < |weeks|
    ensures forall j :: 0 <= j < |weeks| ==> weeks[j].revenue <= weeks[k].revenue
    ensures forall j :: 0 <= j < k ==> weeks[j].revenue < weeks[k].revenue
  {
    if |weeks| == 1 then 0
    else
      var k := HighestIndex(weeks[..|weeks| - 1]);
      if weeks[|weeks| - 1].revenue > weeks[k].revenue then |weeks| - 1 else k
  }

  /** The same scan with a strictly smaller revenue: the first minimal week. */
  function LowestIndex(weeks: seq<Week>): (k: nat)
    requires |weeks| > 0
    ensures k < |weeks|
    ensures forall j :: 0 <= j < |weeks| ==> weeks[k].revenue <= weeks[j].revenue
    ensures forall j :: 0 <= j < k ==> weeks[k].revenue < weeks[j].revenue
  {
    if |weeks| == 1 then 0
    else
      var k := LowestIndex(weeks[..|weeks| - 1]);
      if weeks[|weeks| - 1].revenue < weeks[k].revenue then |weeks| - 1 else k
  }

  /** The first maximal week is the only index with both properties: ties go to the earliest week. */
  lemma HighestIsFirstMaximal(weeks: seq<Week>, k: nat)
    requires k < |weeks|
    requires forall j :: 0 <= j < |weeks| ==> weeks[j].revenue <= weeks[k].revenue
    requires forall j :: 0 <= j < k ==> weeks[j].revenue < weeks[k].revenue
    ensures HighestIndex(weeks) == k
  {
  }

  /** The first minimal week is the only index with both properties. */
  lemma LowestIsFirstMinimal(weeks: seq<Week>, k: nat)
    requires k < |weeks|
    requires forall j :: 0 <= j < |weeks| ==> weeks[k].revenue <= weeks[j].revenue
    requires forall j :: 0 <= j < k ==> weeks[k].revenue < weeks[j].revenue
    ensures LowestIndex(weeks) == k
  {
  }

  /** `total / weeks.length`: the non-negative share that, taken `count` times, gives back the total. */
  function Average(total: nat, count: nat): (avg: real)
    requires count > 0
    ensures avg * (count as real) == total as real
    ensures avg >= 0.0
  {
    total as real / count as real
  }

  /**
   * The growth over the previous month's total and its percentage in tenths;
   * both zero when there is no previous month or it is not in the table.
   */
  function Growth(previous: Option<string>, total: nat): (g: (int, int))
    ensures previous.None? ==> g == (0, 0)
    ensures previous.Some? && GetSalesDataByMonth(previous.value).Some? ==>
              var prevTotal := GetSalesDataByMonth(previous.value).value.total;
              && g.0 + prevTotal == total
              && g.1 == GrowthTenths(g.0, prevTotal)
  {
    match previous
    case None => (0, 0)
    case Some(p) =>
      match GetSalesDataByMonth(p)
      case None => (0, 0)
      case Some(prev) => (total - prev.total, GrowthTenths(total - prev.total, prev.total))
  }

  /** `calculateAnalytics`. */
  function CalculateAnalytics(month: string, weeks: seq<Week>, total: nat): (a: Analytics)
    requires |weeks| > 0
    ensures a.averageWeekly * (|weeks| as real) == total as real
    ensures a.previousMonth == PreviousMonth(month)
    ensures a.previousMonth.None? ==> a.growth == 0 && a.growthTenths == 0
    ensures a.previousMonth.Some? ==> GetSalesDataByMonth(a.previousMonth.value).Some?
    ensures a.previousMonth.Some? ==>
              var prevTotal := GetSalesDataByMonth(a.previousMonth.value).value.total;
              && a.growth + prevTotal == total
              && a.growthTenths == GrowthTenths(a.growth, prevTotal)
    ensures a.highestWeek == Some(weeks[HighestIndex(weeks)])
    ensures a.lowestWeek == Some(weeks[LowestIndex(weeks)])
  {
    var average := Average(total, |weeks|);
    var previous := PreviousMonth(month);
    var (growth, tenths) := Growth(previous, total);
    Analytics(average, growth, tenths, previous,
              Some(weeks[HighestIndex(weeks)]), Some(weeks[LowestIndex(weeks)]))
  }

  /** The computed percentage never has the opposite sign to the growth. */
  lemma AnalyticsSignsAgree(month: string, weeks: seq<Week>, total: nat)
    requires |weeks| > 0
    ensures SignsAgree(CalculateAnalytics(month, weeks, total))
  {
  }

  /** Every month with a predecessor in the chronology has that predecessor in the table. */
  lemma PredecessorRecorded(month: string)
    requires PreviousMonth(month).Some?
    ensures GetSalesDataByMonth(PreviousMonth(month).value).Some?
  {
  }

  /**
   * The percentage and the growth it was computed from agree in sign, as
   * `toFixed` on `growth / prevTotal` guarantees.
   */
  predicate SignsAgree(a: Analytics) {
    && (a.growth < 0 ==> a.growthTenths <= 0)
    && (a.growth >= 0 ==> a.growthTenths >= 0)
  }

  /** The growth percentage as `toFixed(1)` prints it: `-` exactly when the growth is negative. */
  function PercentValue(a: Analytics): string {
    (if a.growth < 0 then "-" else "") + TenthsText(Abs(a.growthTenths))
  }

  /** The percentage with `+` in front exactly when it is above zero. */
  function SignedPercent(a: Analytics): string {
    (if a.growthTenths > 0 then "+" else "") + PercentValue(a)
  }

  /** A one-decimal numeral starts with a digit, never with a sign. */
  lemma TenthsTextStartsWithDigit(t: nat)
    ensures |TenthsText(t)| >= 3 && IsDigit(TenthsText(t)[0])
  {
    var whole := NatToString(t / 10);
    assert TenthsText(t)[0] == whole[0];
  }

  /**
   * The printed percentage carries `+` exactly when it is above zero and `-`
   * exactly when the growth is negative (so a small decline prints `-0.0`).
   * After the sign comes the one-decimal form, and once the sign and the point
   * are dropped it reads back as the number of tenths.
   */
  lemma SignedPercentReadsBack(a: Analytics)
    requires SignsAgree(a)
    ensures |SignedPercent(a)| >= 1
    ensures SignedPercent(a)[0] == '+' <==> a.growthTenths > 0
    ensures SignedPercent(a)[0] == '-' <==> a.growth < 0
    ensures var s := SignedPercent(a);
            var k := if a.growthTenths > 0 || a.growth < 0 then 1 else 0;
            && k <= |s|
            && OneDecimal(s[k..])
            && AllDigits(Remove(s[k..], '.'))
            && ParseDigits(Remove(s[k..], '.')) == Abs(a.growthTenths)
  {
    var t := TenthsText(Abs(a.growthTenths));
    TenthsTextStartsWithDigit(Abs(a.growthTenths));
    TenthsShape(Abs(a.growthTenths));
    TenthsRoundTrip(Abs(a.growthTenths));
    var sign := if a.growthTenths > 0 then "+" else if a.growth < 0 then "-" else "";
    assert SignedPercent(a) == sign + t;
    assert (sign + t)[|sign|..] == t;
    if sign == "" {
      assert (sign + t)[0] == t[0];
    }
  }

  /** The opening of the report line: the month, its grouped total and its weekly average. */
  function TotalsLine(month: string, total: nat, a: Analytics): string
    requires a.averageWeekly >= 0.0
  {
    month + " Total: $" + Grouped(total) + ". Average weekly: $" + AmountText(a.averageWeekly) + "."
  }

  /**
   * `formatSummary`: the totals line, followed by a growth sentence naming the
   * previous month exactly when there is one.
   */
  function FormatSummary(month: string, total: nat, a: Analytics): (s: string)
    requires a.averageWeekly >= 0.0
    ensures TotalsLine(month, total, a) <= s
    ensures s == TotalsLine(month, total, a) <==> a.previousMonth.None?
    ensures a.previousMonth.Some? ==>
              s == TotalsLine(month, total, a) + (" Growth: " + SignedPercent(a) + "% vs. " + a.previousMonth.value + ".")
  {
    var growthText :=
      match a.previousMonth
      case None => ""
      case Some(p) => " Growth: " + SignedPercent(a) + "% vs. " + p + ".";
    assert TotalsLine(month, total, a) <= TotalsLine(month, total, a) + growthText;
    TotalsLine(month, total, a) + growthText
  }

  /** `createReport`. */
  function CreateReport(month: string, weeks: seq<Week>, total: nat, a: Analytics): (r: Report)
    requires a.averageWeekly >= 0.0
    ensures r.month == month && r.total == total && r.weeklyData == weeks && r.analytics == a
    ensures r.summary == FormatSummary(month, total, a)
  {
    Report(month, total, weeks, a, FormatSummary(month, total, a))
  }

  /** The stage's input is usable: present data has at least one week. */
  predicate Acceptable(input: StageResult<MonthData>) {
    input.payload.Some? ==> |input.payload.value.weeks| > 0
  }

  /** `ReportAgent.process(salesResult)`. */
  function Process(input: StageResult<MonthData>): (r: StageResult<Report>)
    requires Acceptable(input)
    ensures r.WellFormed()
    ensures r.success <==> input.payload.Some?
    ensures input.payload.None? ==> r == Failed("No sales data provided to create report")
    ensures r.success ==> var d := input.payload.value; var rep := r.payload.value;
            && rep.month == d.month && rep.total == d.total && rep.weeklyData == d.weeks
            && rep.analytics == CalculateAnalytics(d.month, d.weeks, d.total)
            && rep.analytics.averageWeekly >= 0.0
            && rep.summary == FormatSummary(d.month, d.total, rep.analytics)
            && r.message == rep.summary
  {
    match input.payload
    case None => Failed("No sales data provided to create report")
    case Some(d) =>
      var a := CalculateAnalytics(d.month, d.weeks, d.total);
      AverageNonNegative(a, d.weeks, d.total);
      var report := CreateReport(d.month, d.weeks, d.total, a);
      Succeeded(report.summary, report)
  }

  lemma AverageNonNegative(a: Analytics, weeks: seq<Week>, total: nat)
    requires |weeks| > 0 && a.averageWeekly * (|weeks| as real) == total as real
    ensures a.averageWeekly >= 0.0
  {
  }
}

=== FILE: routing_scenarios.dfy ===
/** The three routing examples the service ships with, end to end through the orchestrator. */
module RoutingScenarios {
  import opened Wrappers
  import opened Text
  import opened SalesData
  import opened SalesStage
  import opened Classifier
  import opened AgentManager

  /** No summary keyword occurs in a text without `y`, `z`, `f`, `q`, `overview` and `concise`. */
  lemma NoSummaryKeyword(text: string)
    requires 'y' !in text && 'z' !in text && 'f' !in text && 'q' !in text
    requires !Contains(text, "overview") && !Contains(text, "concise")
    ensures !HasAny(text, SummaryKeywords())
  {
    AbsentCharacter(text, "summary", 6);
    AbsentCharacter(text, "summarize", 7);
    AbsentCharacter(text, "brief", 4);
    AbsentCharacter(text, "quick look", 0);
  }

  /** No report keyword occurs in a text without `p`, `y`, `d` and without `stats` or `statistics`. */
  lemma NoReportKeyword(text: string)
    requires 'p' !in text && 'y' !in text && 'd' !in text
    requires !Contains(text, "stats") && !Contains(text, "statistics")
    ensures !HasAny(text, ReportKeywords())
  {
    AbsentCharacter(text, "report", 2);
    AbsentCharacter(text, "analytics", 4);
    AbsentCharacter(text, "analysis", 4);
    AbsentCharacter(text, "breakdown", 5);
    AbsentCharacter(text, "detailed", 0);
    AbsentCharacter(text, "performance", 0);
  }

  /** A query naming October and not September resolves to October. */
  lemma NamesOctober(query: string)
    requires Contains(Lower(query), "october") && !Contains(Lower(query), "september")
    ensures ExtractMonth(query) == Some("October")
  {
    var months := AvailableMonths();
    assert Lower(months[0]) == "september" && Lower(months[1]) == "october";
    assert Mentions(Lower(query), months[1]);
  }

  /** The first example, lower-cased. */
  function FirstText(): string {
    "what were the sales in october?"
  }

  lemma FirstTextLacks(c: char)
    requires c == 'y' || c == 'z' || c == 'v' || c == 'f' || c == 'q' || c == 'p' || c == 'd'
    ensures c !in FirstText()
  {
  }

  /** `concise` would have to cross the space before `october?`. */
  lemma FirstTextNoConcise()
    ensures !Contains(FirstText(), "concise")
  {
    var head := "what were the sales in";
    assert FirstText() == head + [' '] + "october?";
    AbsentCharacter(head, "concise", 1);
    AbsentCharacter("october?", "concise", 5);
    AbsentAcross(head, ' ', "october?", "concise");
  }

  /** `stats` and `statistics` would have to cross a space around `sales`. */
  lemma FirstTextNoStats(p: string)
    requires p == "stats" || p == "statistics"
    ensures !Contains(FirstText(), p)
  {
    var head, tail := "what were the", "in october?";
    assert FirstText() == head + [' '] + ("sales" + [' '] + tail);
    AbsentCharacter(head, p, 0);
    AbsentCharacter("sales", p, 1);
    AbsentCharacter(tail, p, 0);
    AbsentAcross("sales", ' ', tail, p);
    AbsentAcross(head, ' ', "sales" + [' '] + tail, p);
  }

  /** `what were the sales in october?` carries no summary or report keyword. */
  lemma FirstQueryKeywords()
    ensures !HasAny(FirstText(), SummaryKeywords())
    ensures !HasAny(FirstText(), ReportKeywords())
  {
    FirstTextLacks('y');
    FirstTextLacks('z');
    FirstTextLacks('v');
    FirstTextLacks('f');
    FirstTextLacks('q');
    FirstTextLacks('p');
    FirstTextLacks('d');
    AbsentCharacter(FirstText(), "overview", 1);
    FirstTextNoConcise();
    FirstTextNoStats("stats");
    FirstTextNoStats("statistics");
    NoSummaryKeyword(FirstText());
    NoReportKeyword(FirstText());
  }

  lemma FirstQueryLowered()
    ensures Lower("What were the sales in October?") == FirstText()
  {
  }

  /** `What were the sales in October?` is a `sales` query: `what were` asks for raw data. */
  lemma FirstQueryIntent()
    ensures Classify("What were the sales in October?") == Sales
  {
    FirstQueryLowered();
    FirstQueryKeywords();
    assert OccursAt(FirstText(), "what were", 0);
    RawDataSalesKeywords("What were the sales in October?", "what were");
  }

  /** ... about October. */
  lemma FirstQueryMonth()
    ensures ExtractMonth("What were the sales in October?") == Some("October")
  {
    FirstQueryLowered();
    AbsentCharacter(FirstText(), "september", 2);
    assert OccursAt(FirstText(), "october", 23);
    NamesOctober("What were the sales in October?");
  }

  /** The first example runs the Sales stage alone and succeeds. */
  lemma SalesQuery(message: string)
    requires message == "What were the sales in October?"
    ensures var r := ProcessMessage(message);
      r.queryIntent == Sales && r.success && r.agentsUsed == [SalesAgent]
  {
    FirstQueryIntent();
    FirstQueryMonth();
    SalesStage.SucceedsIffMonthMentioned(message);
    AgentsUsedByIntent(message);
    RequestSucceedsIffMonthMentioned(message);
  }

  /** The second example, lower-cased. */
  function SecondText(): string {
    "give me the october report"
  }

  lemma SecondTextLacks(c: char)
    requires c == 'y' || c == 'z' || c == 'w' || c == 'f' || c == 'q' || c == 's'
    ensures c !in SecondText()
  {
  }

  lemma SecondQueryLowered()
    ensures Lower("Give me the October report") == SecondText()
  {
  }

  /** `Give me the October report` is a `report` query: `report` is a report keyword. */
  lemma SecondQueryIntent()
    ensures Classify("Give me the October report") == Report
  {
    SecondQueryLowered();
    SecondTextLacks('y');
    SecondTextLacks('z');
    SecondTextLacks('w');
    SecondTextLacks('f');
    SecondTextLacks('q');
    SecondTextLacks('s');
    AbsentCharacter(SecondText(), "overview", 7);
    AbsentCharacter(SecondText(), "concise", 5);
    NoSummaryKeyword(SecondText());
    assert OccursAt(SecondText(), "report", 20);
    assert "report" in ReportKeywords();
  }

  /** ... about October. */
  lemma SecondQueryMonth()
    ensures ExtractMonth("Give me the October report") == Some("October")
  {
    SecondQueryLowered();
    SecondTextLacks('s');
    AbsentCharacter(SecondText(), "september", 0);
    assert OccursAt(SecondText(), "october", 12);
    NamesOctober("Give me the October report");
  }

  /** The second example runs the Sales and Report stages and succeeds. */
  lemma ReportQuery(message: string)
    requires message == "Give me the October report"
    ensures var r := ProcessMessage(message);
      r.queryIntent == Report && r.success && r.agentsUsed == [SalesAgent, ReportAgent]
  {
    SecondQueryIntent();
    SecondQueryMonth();
    SalesStage.SucceedsIffMonthMentioned(message);
    AgentsUsedByIntent(message);
    RequestSucceedsIffMonthMentioned(message);
  }

  /** The third example, lower-cased. */
  function ThirdText(): string {
    "summarize october sales"
  }

  lemma ThirdQueryLowered()
    ensures Lower("Summarize October sales") == ThirdText()
  {
  }

  /** `Summarize October sales` is a `summary` query: `summarize` outranks `sales`. */
  lemma ThirdQueryIntent()
    ensures Classify("Summarize October sales") == Summary
  {
    ThirdQueryLowered();
    assert OccursAt(ThirdText(), "summarize", 0);
    SummaryKeywordWins("Summarize October sales", "summarize");
  }

  /** ... about October. */
  lemma ThirdQueryMonth()
    ensures ExtractMonth("Summarize October sales") == Some("October")
  {
    ThirdQueryLowered();
    assert ThirdText() == "summarize " + "october" + " sales";
    AbsentCharacter(ThirdText(), "september", 2);
    assert OccursAt(ThirdText(), "october", 10);
    NamesOctober("Summarize October sales");
  }

  /** The third example runs all three stages and succeeds. */
  lemma SummaryQuery(message: string)
    requires message == "Summarize October sales"
    ensures var r := ProcessMessage(message);
      r.queryIntent == Summary && r.success && r.agentsUsed == [SalesAgent, ReportAgent, SummaryAgent]
  {
    ThirdQueryIntent();
    ThirdQueryMonth();
    SalesStage.SucceedsIffMonthMentioned(message);
    AgentsUsedByIntent(message);
    RequestSucceedsIffMonthMentioned(message);
  }
}

=== FILE: sales_data.dfy ===
/** The fixed sales table and its two accessors. */
module SalesData {
  import opened Wrappers
  import opened Seqs

  datatype Week = Week(week: nat, revenue: nat)

  datatype MonthRecord = MonthRecord(weeks: seq<Week>, total: nat)

  datatype Entry = Entry(name: string, record: MonthRecord)

  /** Sum of the weekly revenues. */
  function Sum(weeks: seq<Week>): nat {
    if |weeks| == 0 then 0 else Sum(weeks[..|weeks| - 1]) + weeks[|weeks| - 1].revenue
  }

  /** Weeks numbered 1, 2, ... in order. */
  predicate NumberedInOrder(weeks: seq<Week>) {
    forall j :: 0 <= j < |weeks| ==> weeks[j].week == j + 1
  }

  /** Every record the table holds: four numbered weeks whose revenues add up to a positive total. */
  predicate Consistent(r: MonthRecord) {
    && |r.weeks| == 4
    && NumberedInOrder(r.weeks)
    && r.total == Sum(r.weeks)
    && r.total > 0
  }

  /** Sum of four weeks, unrolled. */
  lemma SumOfFour(weeks: seq<Week>)
    requires |weeks| == 4
    ensures Sum(weeks) == weeks[0].revenue + weeks[1].revenue + weeks[2].revenue + weeks[3].revenue
  {
    assert weeks[..4] == weeks;
    assert weeks[..3][..2] == weeks[..2];
    assert weeks[..2][..1] == weeks[..1];
    assert weeks[..1][..0] == [];
    assert Sum(weeks[..1]) == weeks[0].revenue;
    assert Sum(weeks[..2]) == Sum(weeks[..1]) + weeks[1].revenue;
    assert Sum(weeks[..3]) == Sum(weeks[..2]) + weeks[2].revenue;
  }

  function September(): (r: MonthRecord)
    ensures Consistent(r)
  {
    var r := MonthRecord([Week(1, 4500), Week(2, 4800), Week(3, 4200), Week(4, 5000)], 18500);
    SumOfFour(r.weeks);
    r
  }

  function October(): (r: MonthRecord)
    ensures Consistent(r)
  {
    var r := MonthRecord([Week(1, 5000), Week(2, 6200), Week(3, 4800), Week(4, 7000)], 23000);
    SumOfFour(r.weeks);
    r
  }

  function November(): (r: MonthRecord)
    ensures Consistent(r)
  {
    var r := MonthRecord([Week(1, 7500), Week(2, 6800), Week(3, 7200), Week(4, 8000)], 29500);
    SumOfFour(r.weeks);
    r
  }

  /** The table, in the insertion order of its keys. */
  function Table(): (t: seq<Entry>)
    ensures |t| == 3
    ensures forall i :: 0 <= i < |t| ==> Consistent(t[i].record)
    ensures forall i, j :: 0 <= i < j < |t| ==> t[i].name != t[j].name
  {
    [Entry("September", September()), Entry("October", October()), Entry("November", November())]
  }

  /** `getAvailableMonths`: the table's keys in insertion order. */
  function AvailableMonths(): (ms: seq<string>)
    ensures ms == ["September", "October", "November"]
    ensures |ms| == |Table()| && forall i :: 0 <= i < |ms| ==> ms[i] == Table()[i].name
  {
    var t := Table();
    seq(|t|, i requires 0 <= i < |t| => t[i].name)
  }

  /**
   * `getSalesDataByMonth`: the record keyed by `name`, matched case-sensitively,
   * or None.
   */
  function GetSalesDataByMonth(name: string): (r: Option<MonthRecord>)
    ensures r.Some? <==> name in AvailableMonths()
    ensures r.Some? ==> Entry(name, r.value) in Table() && Consistent(r.value)
  {
    var t := Table();
    var k := FirstIndex(AvailableMonths(), name);
    if k < |t| then Some(t[k].record) else None
  }
}

=== FILE: sales_stage.dfy ===
/** The Sales stage (`SalesAgent`): resolve a month and fetch its record. */
module SalesStage {
  import opened Wrappers
  import opened Text
  import opened Numbers
  import opened SalesData
  import opened Stages

  /** The `data` payload: the resolved month with its weeks and total. */
  datatype MonthData = MonthData(month: string, weeks: seq<Week>, total: nat)

  /** The lower-cased query names `month`, ignoring case. */
  predicate Mentions(lowQuery: string, month: string) {
    Contains(lowQuery, Lower(month))
  }

  /**
   * Index of the first of `months` that the query mentions, or `|months|`.
   * Unlike `Seqs.FirstIndex` the test is containment in the query, not equality.
   */
  function FirstMentioned(lowQuery: string, months: seq<string>): (k: nat)
    ensures k <= |months|
    ensures k < |months| ==> Mentions(lowQuery, months[k])
    ensures forall j :: 0 <= j < k ==> !Mentions(lowQuery, months[j])
  {
    if |months| == 0 then 0
    else if Mentions(lowQuery, months[0]) then 0
    else 1 + FirstMentioned(lowQuery, months[1..])
  }

  /**
   * `extractMonth`: the first available month, in table order, whose name the
   * query contains ignoring case.
   */
  function ExtractMonth(query: string): (r: Option<string>)
    ensures r.Some? ==> r.value in AvailableMonths() && Mentions(Lower(query), r.value)
    ensures r.Some? ==> forall j :: 0 <= j < |AvailableMonths()| && Mentions(Lower(query), AvailableMonths()[j])
                                    ==> r.value in AvailableMonths()[..j + 1]
    ensures r.None? <==> forall m :: m in AvailableMonths() ==> !Mentions(Lower(query), m)
  {
    var months := AvailableMonths();
    var k := FirstMentioned(Lower(query), months);
    if k < |months| then
      assert months[..k + 1][k] == months[k];
      Some(months[k])
    else None
  }

  /** `context.month || extractMonth(query)`: a non-empty override wins. */
  function ResolveMonth(query: string, contextMonth: Option<string>): Option<string> {
    if contextMonth.Some? && contextMonth.value != "" then contextMonth else ExtractMonth(query)
  }

  function AvailableList(): string {
    Join(AvailableMonths(), ", ")
  }

  function NoMonthMessage(): string {
    "No specific month found. Available months: " + AvailableList()
  }

  function NoDataMessage(month: string): string {
    "No data found for " + month + ". Available months: " + AvailableList()
  }

  /** One entry of the breakdown: `Week N - $X` with X grouped. */
  function WeekLine(w: Week): string {
    "Week " + NatToString(w.week) + " - $" + Grouped(w.revenue)
  }

  function WeekLines(weeks: seq<Week>): (lines: seq<string>)
    ensures |lines| == |weeks|
    ensures forall i :: 0 <= i < |weeks| ==> lines[i] == WeekLine(weeks[i])
  {
    seq(|weeks|, i requires 0 <= i < |weeks| => WeekLine(weeks[i]))
  }

  /** The weekly breakdown, weeks in input order separated by `, `. */
  function Breakdown(weeks: seq<Week>): string {
    Join(WeekLines(weeks), ", ")
  }

  /** `formatData`. */
  function FormatData(month: string, weeks: seq<Week>): string {
    "Here's the " + month + " data: " + Breakdown(weeks) + "."
  }

  /** The breakdown grows week by week: one more week appends its line after a separator. */
  lemma BreakdownSnoc(weeks: seq<Week>, w: Week)
    requires |weeks| > 0
    ensures Breakdown(weeks + [w]) == Breakdown(weeks) + ", " + WeekLine(w)
  {
    assert WeekLines(weeks + [w]) == WeekLines(weeks) + [WeekLine(w)];
    JoinSnoc(WeekLines(weeks), ", ", WeekLine(w));
  }

  /** `SalesAgent.process(query, context)`. */
  function Process(query: string, contextMonth: Option<string>): (r: StageResult<MonthData>)
    ensures r.WellFormed()
    ensures r.success <==> ResolveMonth(query, contextMonth).Some? && ResolveMonth(query, contextMonth).value in AvailableMonths()
    ensures ResolveMonth(query, contextMonth).None? ==> r == Failed(NoMonthMessage())
    ensures ResolveMonth(query, contextMonth).Some? && !r.success
            ==> r == Failed(NoDataMessage(ResolveMonth(query, contextMonth).value))
    ensures r.success ==> var d := r.payload.value;
            && d.month == ResolveMonth(query, contextMonth).value
            && GetSalesDataByMonth(d.month) == Some(MonthRecord(d.weeks, d.total))
            && Consistent(MonthRecord(d.weeks, d.total))
            && r.message == FormatData(d.month, d.weeks)
  {
    match ResolveMonth(query, contextMonth)
    case None => Failed(NoMonthMessage())
    case Some(month) =>
      match GetSalesDataByMonth(month)
      case None => Failed(NoDataMessage(month))
      case Some(record) =>
        Succeeded(FormatData(month, record.weeks), MonthData(month, record.weeks, record.total))
  }

  /**
   * Without an override the stage fails exactly when the query names no
   * available month: an extracted month always has a record.
   */
  lemma SucceedsIffMonthMentioned(query: string)
    ensures Process(query, None).success <==> ExtractMonth(query).Some?
  {
  }
}

=== FILE: scenarios.dfy ===
/** The figures the shipped table produces, worked out through the model. */
module Scenarios {
  import opened Wrappers
  import opened Seqs
  import opened Text
  import opened Numbers
  import opened SalesData
  import opened Stages
  import opened SalesStage
  import opened ReportStage
  import opened SummaryStage

  /** September opens the chronology: no previous month, no growth. */
  lemma SeptemberHasNoBaseline()
    ensures var a := CalculateAnalytics("September", September().weeks, September().total);
      a.previousMonth.None? && a.growthTenths == 0
  {
    assert FirstIndex(MonthOrder(), "September") == 0;
  }

  /** October against September: 23000 after 18500 is +24.3%. */
  lemma OctoberGrowth()
    ensures var a := CalculateAnalytics("October", October().weeks, October().total);
      a.previousMonth == Some("September") && a.growth == 4500 && a.growthTenths == 243
  {
    assert FirstIndex(MonthOrder(), "October") == 1;
    assert GetSalesDataByMonth("September") == Some(September());
  }

  /** November against October: 29500 after 23000 is +28.3%. */
  lemma NovemberGrowth()
    ensures var a := CalculateAnalytics("November", November().weeks, November().total);
      a.previousMonth == Some("October") && a.growth == 6500 && a.growthTenths == 283
  {
    assert FirstIndex(MonthOrder(), "November") == 2;
    assert GetSalesDataByMonth("October") == Some(October());
  }

  lemma TotalNumeral()
    ensures Grouped(23000) == "23,000"
  {
    assert NatToString(23) == "23";
    assert Pad3(0) == "000";
  }

  lemma AverageNumeral()
    ensures AmountText(5750.0) == "5,750"
  {
    AmountWhole(5750);
    assert Pad3(750) == "750";
  }

  lemma GrowthNumeral()
    ensures TenthsText(243) == "24.3"
  {
    assert NatToString(24) == "24";
  }

  /** The Report stage's line for an October-like analytics record. */
  lemma OctoberSummaryText(a: Analytics)
    requires a.averageWeekly == 5750.0 && a.previousMonth == Some("September")
    requires a.growth == 4500 && a.growthTenths == 243
    ensures FormatSummary("October", 23000, a)
      == "October" + " Total: $" + "23,000" + ". Average weekly: $" + "5,750" + "."
         + (" Growth: " + "+24.3" + "% vs. " + "September" + ".")
  {
    TotalNumeral();
    AverageNumeral();
    GrowthNumeral();
  }

  /** The Report stage's line for October as the table gives it. */
  lemma OctoberReportSummary()
    ensures var a := CalculateAnalytics("October", October().weeks, October().total);
      FormatSummary("October", 23000, a)
        == "October" + " Total: $" + "23,000" + ". Average weekly: $" + "5,750" + "."
           + (" Growth: " + "+24.3" + "% vs. " + "September" + ".")
  {
    var a := CalculateAnalytics("October", October().weeks, October().total);
    OctoberGrowth();
    assert a.averageWeekly == 5750.0;
    OctoberSummaryText(a);
  }

  lemma CurrencyNumerals()
    ensures FormatCurrency(23000) == "$" + "23.0" + "K"
    ensures FormatCurrency(500) == "$" + "500"
    ensures Grouped(7000) == "7,000"
  {
    assert ThousandsTenths(23000) == 230;
    assert NatToString(23) == "23";
    assert NatToString(500) == "500";
    assert Pad3(0) == "000";
  }

  /** The highest and lowest October weeks: Week 4 at 7000 and Week 3 at 4800. */
  lemma OctoberExtremes()
    ensures HighestIndex(October().weeks) == 3 && LowestIndex(October().weeks) == 2
  {
    HighestIsFirstMaximal(October().weeks, 3);
    LowestIsFirstMinimal(October().weeks, 2);
  }

  /** The Summary stage's narrative for an October-like report. */
  lemma OctoberNarrativeText(r: Report)
    requires r.total == 23000 && r.analytics.previousMonth.Some?
    requires r.analytics.growth == 4500 && r.analytics.growthTenths == 243
    requires r.analytics.highestWeek == Some(Week(4, 7000)) && r.analytics.lowestWeek.Some?
    ensures CreateSummary(r)
      == "Revenue " + "grew strongly" + " this month \U{2014} total " + ("$" + "23.0" + "K")
         + (" (" + "+24.3" + "% from last month)") + "."
         + " Best performance in Week " + "4" + " ($" + "7,000" + ")."
  {
    CurrencyNumerals();
    GrowthNumeral();
    assert DetermineTrend(r.analytics) == GrewStrongly;
  }

  /** The narrative the Summary stage writes for October. */
  lemma OctoberNarrative()
    ensures var a := CalculateAnalytics("October", October().weeks, October().total);
      CreateSummary(CreateReport("October", October().weeks, 23000, a))
        == "Revenue " + "grew strongly" + " this month \U{2014} total " + ("$" + "23.0" + "K")
           + (" (" + "+24.3" + "% from last month)") + "."
           + " Best performance in Week " + "4" + " ($" + "7,000" + ")."
  {
    var a := CalculateAnalytics("October", October().weeks, October().total);
    OctoberGrowth();
    OctoberExtremes();
    AverageNonNegative(a, October().weeks, October().total);
    OctoberNarrativeText(CreateReport("October", October().weeks, 23000, a));
  }

  lemma SeptemberTotalNumeral()
    ensures Grouped(18500) == "18,500"
  {
    assert NatToString(18) == "18";
    assert Pad3(500) == "500";
  }

  lemma SeptemberAverageNumeral()
    ensures AmountText(4625.0) == "4,625"
  {
    AmountWhole(4625);
    assert Pad3(625) == "625";
  }

  lemma NovemberTotalNumeral()
    ensures Grouped(29500) == "29,500"
  {
    assert NatToString(29) == "29";
    assert Pad3(500) == "500";
  }

  lemma NovemberAverageNumeral()
    ensures AmountText(7375.0) == "7,375"
  {
    AmountWhole(7375);
    assert Pad3(375) == "375";
  }

  lemma NovemberGrowthNumeral()
    ensures TenthsText(283) == "28.3"
  {
    assert NatToString(28) == "28";
  }

  /** The Report stage's line for a September-like analytics record: no growth sentence. */
  lemma SeptemberSummaryText(a: Analytics)
    requires a.averageWeekly == 4625.0 && a.previousMonth.None?
    ensures FormatSummary("September", 18500, a)
      == "September" + " Total: $" + "18,500" + ". Average weekly: $" + "4,625" + "."
  {
    SeptemberTotalNumeral();
    SeptemberAverageNumeral();
  }

  /** The Report stage's line for September, which has no month before it. */
  lemma SeptemberReportSummary()
    ensures var a := CalculateAnalytics("September", September().weeks, September().total);
      FormatSummary("September", 18500, a)
        == "September" + " Total: $" + "18,500" + ". Average weekly: $" + "4,625" + "."
  {
    var a := CalculateAnalytics("September", September().weeks, September().total);
    SeptemberHasNoBaseline();
    assert a.averageWeekly == 4625.0;
    SeptemberSummaryText(a);
  }

  /** The Report stage's line for a November-like analytics record. */
  lemma NovemberSummaryText(a: Analytics)
    requires a.averageWeekly == 7375.0 && a.previousMonth == Some("October")
    requires a.growth == 6500 && a.growthTenths == 283
    ensures FormatSummary("November", 29500, a)
      == "November" + " Total: $" + "29,500" + ". Average weekly: $" + "7,375" + "."
         + (" Growth: " + "+28.3" + "% vs. " + "October" + ".")
  {
    NovemberTotalNumeral();
    NovemberAverageNumeral();
    NovemberGrowthNumeral();
  }

  /** The Report stage's line for November against October. */
  lemma NovemberReportSummary()
    ensures var a := CalculateAnalytics("November", November().weeks, November().total);
      FormatSummary("November", 29500, a)
        == "November" + " Total: $" + "29,500" + ". Average weekly: $" + "7,375" + "."
           + (" Growth: " + "+28.3" + "% vs. " + "October" + ".")
  {
    var a := CalculateAnalytics("November", November().weeks, November().total);
    NovemberGrowth();
    assert a.averageWeekly == 7375.0;
    NovemberSummaryText(a);
  }

  /** The highest and lowest September weeks: Week 4 at 5000 and Week 3 at 4200. */
  lemma SeptemberExtremes()
    ensures HighestIndex(September().weeks) == 3 && LowestIndex(September().weeks) == 2
  {
    HighestIsFirstMaximal(September().weeks, 3);
    LowestIsFirstMinimal(September().weeks, 2);
  }

  /** The Summary stage's narrative for a September-like report: no percentage clause. */
  lemma SeptemberNarrativeText(r: Report)
    requires r.total == 18500 && r.analytics.previousMonth.None?
    requires r.analytics.highestWeek == Some(Week(4, 5000)) && r.analytics.lowestWeek.Some?
    ensures CreateSummary(r)
      == "Revenue " + "performed well" + " this month \U{2014} total " + ("$" + "18.5" + "K") + "."
         + (" Best performance" + " in Week " + "4" + " ($" + "5,000" + ").")
  {
    assert ThousandsTenths(18500) == 185;
    assert NatToString(18) == "18";
    assert TenthsText(185) == "18.5";
    assert NatToString(5) == "5";
    assert Pad3(0) == "000";
  }

  /** The narrative the Summary stage writes for September: `performed well`, with no comparison. */
  lemma SeptemberNarrative()
    ensures var a := CalculateAnalytics("September", September().weeks, September().total);
      CreateSummary(CreateReport("September", September().weeks, 18500, a))
        == "Revenue " + "performed well" + " this month \U{2014} total " + ("$" + "18.5" + "K") + "."
           + (" Best performance" + " in Week " + "4" + " ($" + "5,000" + ").")
  {
    var a := CalculateAnalytics("September", September().weeks, September().total);
    SeptemberHasNoBaseline();
    SeptemberExtremes();
    AverageNonNegative(a, September().weeks, September().total);
    SeptemberNarrativeText(CreateReport("September", September().weeks, 18500, a));
  }

  /** The months the failure messages list, in table order. */
  lemma AvailableListText()
    ensures AvailableList() == "September" + ", " + "October" + ", " + "November"
  {
    var ms := AvailableMonths();
    assert ms[1..][1..] == ["November"];
  }

  lemma FirstHalfLines()
    ensures WeekLine(Week(1, 5000)) == "Week 1 - $5,000"
    ensures WeekLine(Week(2, 6200)) == "Week 2 - $6,200"
  {
    assert Pad3(0) == "000";
    assert Pad3(200) == "200";
  }

  lemma ThirdWeekLine()
    ensures WeekLine(Week(3, 4800)) == "Week 3 - $4,800"
  {
    assert Pad3(800) == "800";
  }

  lemma FourthWeekLine()
    ensures WeekLine(Week(4, 7000)) == "Week 4 - $7,000"
  {
    assert Pad3(0) == "000";
  }

  /** The Sales stage's breakdown of October, week by week. */
  lemma OctoberBreakdown()
    ensures Breakdown(October().weeks)
      == "Week 1 - $5,000" + ", " + "Week 2 - $6,200" + ", " + "Week 3 - $4,800" + ", " + "Week 4 - $7,000"
  {
    var ws := October().weeks;
    FirstHalfLines();
    ThirdWeekLine();
    FourthWeekLine();
    assert ws[..1] + [ws[1]] == ws[..2];
    assert ws[..2] + [ws[2]] == ws[..3];
    assert ws[..3] + [ws[3]] == ws;
    BreakdownSnoc(ws[..1], ws[1]);
    BreakdownSnoc(ws[..2], ws[2]);
    BreakdownSnoc(ws[..3], ws[3]);
  }
}

=== FILE: seqs.dfy ===
/** Searching sequences. */
module Seqs {

  /**
   * Position of the first `x` in `s`, scanning from the front, or `|s|` when
   * there is none (where JavaScript's `indexOf` gives -1).
   */
  function FirstIndex<T(==)>(s: seq<T>, x: T): (k: nat)
    ensures k <= |s|
    ensures k < |s| ==> s[k] == x
    ensures forall j :: 0 <= j < k ==> s[j] != x
  {
    if |s| == 0 then 0
    else if s[0] == x then 0
    else 1 + FirstIndex(s[1..], x)
  }
}

=== FILE: stages.dfy ===
/** The record every stage hands to the next one. */
module Stages {
  import opened Wrappers

  /**
   * `{success, message, <payload>}`: the payload is the stage's structured
   * output (`data`, `report` or `fullReport`) and is null on failure.
   */
  datatype StageResult<P> = StageResult(success: bool, message: string, payload: Option<P>) {

    /** Success and the presence of a payload go together. */
    predicate WellFormed() {
      success <==> payload.Some?
    }
  }

  function Failed<P>(message: string): (r: StageResult<P>)
    ensures r.WellFormed() && !r.success && r.message == message
  {
    StageResult(false, message, None)
  }

  function Succeeded<P>(message: string, payload: P): (r: StageResult<P>)
    ensures r.WellFormed() && r.success && r.message == message && r.payload == Some(payload)
  {
    StageResult(true, message, Some(payload))
  }
}

=== FILE: summary_stage.dfy ===
/** The Summary stage (`SummaryAgent`): a trend label and a short narrative. */
module SummaryStage {
  import opened Wrappers
  import opened Text
  import opened Numbers
  import opened SalesData
  import opened Stages
  import opened ReportStage

  datatype Trend = PerformedWell | GrewStrongly | GrewSteadily | RemainedStable | DeclinedSlightly | Declined {

    function Label(): string {
      match this
      case PerformedWell => "performed well"
      case GrewStrongly => "grew strongly"
      case GrewSteadily => "grew steadily"
      case RemainedStable => "remained stable"
      case DeclinedSlightly => "declined slightly"
      case Declined => "declined"
    }

    /** Position on the growth scale; PerformedWell has none. */
    function Rank(): int {
      match this
      case PerformedWell => 0
      case Declined => 1
      case DeclinedSlightly => 2
      case RemainedStable => 3
      case GrewSteadily => 4
      case GrewStrongly => 5
    }
  }

  /**
   * `determineTrend`: bands of the growth percentage (in tenths: above 100,
   * above 0, exactly 0, above -100, the rest), or `performed well` when there
   * is no month to compare with.
   */
  function DetermineTrend(a: Analytics): (t: Trend)
    ensures t == PerformedWell <==> a.previousMonth.None?
    ensures a.previousMonth.Some? ==>
      && (t == GrewStrongly <==> a.growthTenths > 100)
      && (t == GrewSteadily <==> 0 < a.growthTenths <= 100)
      && (t == RemainedStable <==> a.growthTenths == 0)
      && (t == DeclinedSlightly <==> -100 < a.growthTenths < 0)
      && (t == Declined <==> a.growthTenths <= -100)
  {
    if a.previousMonth.None? then PerformedWell
    else if a.growthTenths > 100 then GrewStrongly
    else if a.growthTenths > 0 then GrewSteadily
    else if a.growthTenths == 0 then RemainedStable
    else if a.growthTenths > -100 then DeclinedSlightly
    else Declined
  }

  /** More growth never earns a weaker label. */
  lemma TrendMonotone(a: Analytics, b: Analytics)
    requires a.previousMonth.Some? && b.previousMonth.Some?
    requires a.growthTenths <= b.growthTenths
    ensures DetermineTrend(a).Rank() <= DetermineTrend(b).Rank()
  {
  }

  /** Different labels read differently. */
  lemma LabelsDistinct(s: Trend, t: Trend)
    requires s != t
    ensures s.Label() != t.Label()
  {
  }

  /**
   * `(amount / 1000).toFixed(1)` in tenths of a thousand, rounded on the exact
   * quotient: the nearest, halves up. The engine rounds the double nearest to
   * the quotient instead, which can fall just below a half.
   */
  function ThousandsTenths(amount: nat): (n: nat)
    ensures -50 <= amount - 100 * n < 50
  {
    (amount + 50) / 100
  }

  /** `formatCurrency`: `$X.XK` from 1000 up, otherwise the grouped amount. */
  function FormatCurrency(amount: nat): string {
    if amount >= 1000 then "$" + TenthsText(ThousandsTenths(amount)) + "K"
    else "$" + Grouped(amount)
  }

  /**
   * The shorthand reads back: below 1000 it is the exact amount; from 1000 up
   * it is `$`, a one-decimal number of thousands and `K`, and that number is
   * within half a tenth of the amount.
   */
  lemma FormatCurrencyReadsBack(amount: nat)
    ensures amount < 1000 ==> FormatCurrency(amount) == "$" + NatToString(amount)
    ensures amount >= 1000 ==>
      var text := FormatCurrency(amount);
      && |text| >= 2 && text[0] == '$' && text[|text| - 1] == 'K'
      && OneDecimal(text[1..|text| - 1])
      && AllDigits(Remove(text[1..|text| - 1], '.'))
      && -50 <= amount - 100 * ParseDigits(Remove(text[1..|text| - 1], '.')) < 50
  {
    if amount >= 1000 {
      var text := FormatCurrency(amount);
      var n := ThousandsTenths(amount);
      assert text[1..|text| - 1] == TenthsText(n);
      TenthsShape(n);
      TenthsRoundTrip(n);
    }
  }

  /** The narrative's opening: the trend label and the total in shorthand. */
  function Opening(report: Report): string {
    "Revenue " + DetermineTrend(report.analytics).Label() + " this month \U{2014} total " + FormatCurrency(report.total)
  }

  /**
   * The narrative, before the best-week sentence: the opening, then the signed
   * percentage in parentheses exactly when there is a previous month.
   */
  function Headline(report: Report): (h: string)
    ensures Opening(report) <= h
    ensures h == Opening(report) + "." <==> report.analytics.previousMonth.None?
    ensures report.analytics.previousMonth.Some? ==>
              h == Opening(report) + (" (" + SignedPercent(report.analytics) + "% from last month)") + "."
  {
    var a := report.analytics;
    var growthText :=
      match a.previousMonth
      case None => ""
      case Some(_) => " (" + SignedPercent(a) + "% from last month)";
    assert Opening(report) <= Opening(report) + growthText + ".";
    assert growthText != "" ==> (Opening(report) + growthText + ".")[|Opening(report)|] == growthText[0];
    Opening(report) + growthText + "."
  }

  /** The sentence naming the best week and its grouped revenue. */
  function BestWeekSentence(best: Week): string {
    " Best performance" + " in Week " + NatToString(best.week) + " ($" + Grouped(best.revenue) + ")."
  }

  /**
   * `createSummary`: the headline, followed by the best-week sentence for the
   * report's highest week exactly when both extremes are present.
   */
  function CreateSummary(report: Report): (s: string)
    ensures Headline(report) <= s
    ensures s == Headline(report) <==> report.analytics.highestWeek.None? || report.analytics.lowestWeek.None?
    ensures report.analytics.highestWeek.Some? && report.analytics.lowestWeek.Some? ==>
              s == Headline(report) + BestWeekSentence(report.analytics.highestWeek.value)
  {
    var a := report.analytics;
    if a.highestWeek.Some? && a.lowestWeek.Some? then
      var sentence := BestWeekSentence(a.highestWeek.value);
      assert Headline(report) <= Headline(report) + sentence;
      Headline(report) + sentence
    else Headline(report)
  }

  /** `SummaryAgent.process(reportResult)`; the payload is `fullReport`. */
  function Process(input: StageResult<Report>): (r: StageResult<Report>)
    ensures r.WellFormed()
    ensures r.success <==> input.payload.Some?
    ensures input.payload.None? ==> r == Failed("No report data provided to summarize")
    ensures r.success ==> r.payload == input.payload && r.message == CreateSummary(input.payload.value)
  {
    match input.payload
    case None => Failed("No report data provided to summarize")
    case Some(report) => Succeeded(CreateSummary(report), report)
  }
}

=== FILE: text.dfy ===
/**
 * String helpers standing for the JavaScript built-ins the core relies on:
 * `toLowerCase`, `includes` and `Array.prototype.join`.
 */
module Text {

  predicate IsUpper(c: char) {
    'A' <= c <= 'Z'
  }

  /** Lower-cases one character. Only the ASCII letters are mapped. */
  function LowerChar(c: char): char {
    if IsUpper(c) then (c as int + 32) as char else c
  }

  /** `String.prototype.toLowerCase`, restricted to ASCII letters. */
  function Lower(s: string): (r: string)
    ensures |r| == |s|
    ensures forall i :: 0 <= i < |r| ==> !IsUpper(r[i])
    ensures forall i :: 0 <= i < |s| && !IsUpper(s[i]) ==> r[i] == s[i]
    ensures forall i :: 0 <= i < |s| && IsUpper(s[i]) ==> r[i] as int - 'a' as int == s[i] as int - 'A' as int
  {
    seq(|s|, i requires 0 <= i < |s| => LowerChar(s[i]))
  }

  /** Lower-casing twice changes nothing more than lower-casing once. */
  lemma LowerIdempotent(s: string)
    ensures Lower(Lower(s)) == Lower(s)
  {
  }

  /** `p` occurs in `s` starting at index `i`. */
  predicate OccursAt(s: string, p: string, i: int) {
    0 <= i && i + |p| <= |s| && s[i..i + |p|] == p
  }

  /** `String.prototype.includes`: some occurrence of `p` in `s` exists. */
  predicate Contains(s: string, p: string) {
    exists i | 0 <= i <= |s| - |p| :: OccursAt(s, p, i)
  }

  /** Being a substring is transitive. */
  lemma ContainsTransitive(s: string, p: string, q: string)
    requires Contains(s, p) && Contains(p, q)
    ensures Contains(s, q)
  {
    var i :| 0 <= i <= |s| - |p| && OccursAt(s, p, i);
    var j :| 0 <= j <= |p| - |q| && OccursAt(p, q, j);
    forall t | 0 <= t < |q|
      ensures s[i + j + t] == q[t]
    {
      assert q[t] == p[j..j + |q|][t] == p[j + t];
      assert p[j + t] == s[i..i + |p|][j + t] == s[i + j + t];
    }
    assert s[i + j..i + j + |q|] == q;
    assert OccursAt(s, q, i + j);
  }

  /** Every character of a contained string is a character of the container. */
  lemma AbsentCharacter(s: string, p: string, k: int)
    requires 0 <= k < |p| && p[k] !in s
    ensures !Contains(s, p)
  {
    forall i | 0 <= i <= |s| - |p|
      ensures !OccursAt(s, p, i)
    {
      assert s[i..i + |p|][k] == s[i + k];
      assert s[i + k] in s;
    }
  }

  /**
   * An occurrence of `p` cannot straddle a character `c` that `p` does not
   * contain: it lies wholly left or wholly right of it.
   */
  lemma AbsentAcross(x: string, c: char, y: string, p: string)
    requires c !in p
    requires !Contains(x, p) && !Contains(y, p)
    ensures !Contains(x + [c] + y, p)
  {
    var s := x + [c] + y;
    forall i | 0 <= i <= |s| - |p|
      ensures !OccursAt(s, p, i)
    {
      if i + |p| <= |x| {
        assert s[i..i + |p|] == x[i..i + |p|];
        assert !OccursAt(x, p, i);
      } else if i > |x| {
        assert s[i..i + |p|] == y[i - |x| - 1..i - |x| - 1 + |p|];
        assert !OccursAt(y, p, i - |x| - 1);
      } else {
        assert s[i..i + |p|][|x| - i] == c;
      }
    }
  }

  /** `Array.prototype.join`. */
  function Join(parts: seq<string>, sep: string): (r: string)
    ensures |parts| == 0 ==> r == ""
    ensures |parts| == 1 ==> r == parts[0]
  {
    if |parts| == 0 then ""
    else if |parts| == 1 then parts[0]
    else parts[0] + sep + Join(parts[1..], sep)
  }

  /** Joining is a left-to-right fold: appending a part appends the separator and the part. */
  lemma {:induction false} JoinSnoc(parts: seq<string>, sep: string, last: string)
    requires |parts| > 0
    ensures Join(parts + [last], sep) == Join(parts, sep) + sep + last
  {
    if |parts| == 1 {
      assert parts + [last] == [parts[0], last];
      assert [parts[0], last][1..] == [last];
    } else {
      assert (parts + [last])[1..] == parts[1..] + [last];
      JoinSnoc(parts[1..], sep, last);
    }
  }

  /** `s` with every occurrence of `c` deleted. */
  function Remove(s: string, c: char): (r: string)
    ensures c !in r
    ensures |r| <= |s|
  {
    if |s| == 0 then ""
    else (if s[0] == c then "" else [s[0]]) + Remove(s[1..], c)
  }

  lemma {:induction false} RemoveAppend(a: string, b: string, c: char)
    ensures Remove(a + b, c) == Remove(a, c) + Remove(b, c)
  {
    if |a| == 0 {
      assert a + b == b;
    } else {
      assert (a + b)[1..] == a[1..] + b;
      RemoveAppend(a[1..], b, c);
    }
  }

  lemma {:induction false} RemoveAbsent(s: string, c: char)
    requires c !in s
    ensures Remove(s, c) == s
  {
    if |s| > 0 {
      RemoveAbsent(s[1..], c);
    }
  }
}

=== FILE: wrappers.dfy ===
/** The absent-or-present value that stands for JavaScript's `null`/`undefined` results. */
module Wrappers {

  datatype Option<+T> = None | Some(value: T)
}
